=== FILE: README.md ===
# Employee-management backend: accounts and access decisions

This project models the account store and the access decisions of an
Express/Mongoose backend that serves three kinds of user: admins, managers and
employees. Admins create managers. Managers create the employees they manage.
Each user logs in, changes a password, edits a profile and asks for a password
reset. The model covers these parts:

- **Documents** (`accounts.dfy`): the Admin, Manager and Employee schemas.
  - Their setters: `trim`, and `lowercase` on the email.
  - Their validators: required fields, username length 3 to 50, password length at least 6, and the required `createdBy`/`managerId` references.
  - The pre-save hook, which hashes a modified password.
  - `comparePassword`, and `toJSON`, which strips the secret paths.
- **The store** (`store.dfy`): three append-only tables, each a sequence whose index is the document id.
  - `findOne` returns the first match.
  - The unique indexes on `username` and `email` are enforced at save.
  - The `Db` class's `Save` method updates a table in place and keeps every table valid.
- **Bearer tokens** (`tokens.dfy`): `generateToken` and `jwt.verify`. HS256 is an ideal MAC.
- **Passport** (`passport.dfy`): the three local strategies and the `{id, role}` session encoding.
- **Gates** (`auth.dfy`): `verifyToken`, `adminAuth`/`managerAuth`/`employeeAuth`, `adminOrManagerAuth` and the three web gates. Each is a method that either binds a user or answers 401 or 403.
- **Handlers**: the controllers' handlers as transitions of the store.
  - `handlers.dfy` holds the shared shapes: create, login, change password, update, toggle, forgot password and counts.
  - `admin_controller.dfy`, `manager_controller.dfy` and `employee_controller.dfy` hold what is particular to each controller.
- **The admin router** (`admin_routes.dfy`): which endpoints run `adminAuth`, and the inline forgot-password handler.

Both directions of each decision are stated. For example:
- A gate binds a user exactly when the token (or session) names an existing account of its role that is active where the role has an `isActive` flag.
- It answers 403 exactly when a valid token carries another role.
- A create answers 400 exactly when the lookup finds the username or the email, and otherwise 201 exactly when the validators accept the new document. It either appends exactly the hashed new document or leaves the table unchanged.
- An update answers each of its 400s exactly when its check is the first to fail, and otherwise 200 exactly when the validators accept the edited document.

The main results:
- Every table stays free of duplicate usernames and emails across every save (`Store.Db.Save`, `Store.SavePreservesTable`).
- A checked update can never fail on a unique index (`Handlers.CheckedEditKeepsIndexes`).
- A manager can only reach their own employees (`ManagerController.ScopedLookup` and the scoped methods).
- Toggling is an involution (`Handlers.ToggleInvolution`).
- `toJSON` never leaks a password or a reset token (`Accounts.ToJson`).
- A session round-trips (`Passport.SessionRoundTrip`).
- A guarded admin endpoint writes nothing unless the token binds an admin (`AdminRoutes.Serve`).

The shared handlers take the collection as a parameter, so one Dafny member models the same handler in all three controllers. For example, `Handlers.Login` is the `login` of `controllers/adminController.js`, `controllers/managerController.js` and `controllers/employeeController.js`. The table cites one controller and names the others in the last column.

## Model

Plain definitions whose meaning is stated by lemmas about them are mapped through those lemmas' rows: `Accounts.ComparePassword` (models/Admin.js:58-60) through `Crypto.CompareAcceptsOnlyThePassword` and `Accounts.PreSave`, `Passport.FindSessionUser` (controllers/managerController.js:429) through `Passport.FindSessionUserAgrees`, and `Store.CountManagedActive` (controllers/managerController.js:351-358) through `Store.ManagedActiveCount`.

| member | source | states |
|---|---|---|
| Crypto.CompareAcceptsOnlyThePassword | models/Admin.js:58-60 | a bcrypt digest accepts a candidate exactly when it is the hashed password, whatever the salt |
| Accounts.Trim | models/Admin.js:5-12 | the `trim` setter returns the slice of the value between its leading and its trailing white space: what it drops is white space, and none is left at either end |
| Accounts.TrimFixesTrimmed | models/Admin.js:9 | a value with no white space at either end is its own trim |
| Accounts.TrimIdempotent | models/Admin.js:9 | trimming twice equals trimming once |
| Accounts.NormEmailShape | models/Admin.js:13-19 | an email after its setters has no upper-case letter and no white space at either end |
| Accounts.NormEmailFixes | models/Admin.js:13-19 | an email already lower-case and trimmed is left unchanged by its setters |
| Accounts.NormEmailIdempotent | models/Admin.js:13-19 | normalising an email twice equals normalising it once |
| Accounts.NormalizedIsFixpoint | models/Manager.js:5-29 | assigning a stored username, email or phone back to its path changes nothing |
| Accounts.NewAccount | models/Employee.js:34-51 | `new Model({...})` holds the trimmed username and phone and the lower-cased, trimmed email; it is in its collection, carries the plaintext password, has the schema's role, is active exactly for managers and employees, has no reset fields, and keeps the given `createdBy`/`managerId` |
| Accounts.PreSave | models/Admin.js:45-55 | the hook hashes only a modified (plaintext) password; an unmodified digest is kept; afterwards exactly the new password compares equal; no other path changes |
| Accounts.PublicPathsHoldNoSecret | models/Admin.js:63-69 | outside `password`, `resetPasswordToken` and `resetPasswordExpires`, a document's plain object holds no password and no token |
| Accounts.ToJson | models/Manager.js:72-78 | `toJSON` keeps exactly the plain object's keys minus the three secret paths, with their values unchanged, and no value is a password or a token (same in models/Admin.js:63-69, models/Employee.js:77-83) |
| Accounts.ActiveFlagOnlyOnManagedTiers | models/Manager.js:38-41 | a manager's or employee's document has an `isActive` path; an admin's never does (models/Admin.js:4-42 declares none) |
| Tokens.GenerateToken | middleware/auth.js:7-17 | the token's payload is exactly the user's `{id, role, username}`, issued now and expiring seven days later, signed with the secret |
| Tokens.IssuedTokenVerifiesUntilExpiry | middleware/auth.js:7-17 | a generated token verifies to the user's claims before seven days have passed, and is rejected afterwards |
| Tokens.ForeignSecretRejected | middleware/auth.js:45 | a token signed with a different secret never verifies |
| Tokens.TamperedPayloadRejected | middleware/auth.js:45 | changing the payload of a signed token (its role, say) makes it invalid |
| Tokens.DefaultSecretAcceptsForgedTokens | middleware/auth.js:45 | with `JWT_SECRET` unset, a token anyone signs with the built-in default verifies to whatever claims it carries |
| Store.FindOne | controllers/adminController.js:17-19 | `findOne` returns the first matching document, or none exactly when no document matches |
| Store.ActivePlusInactive | controllers/adminController.js:217-224 | each document counts as either active or inactive, so the two counts add up to the total |
| Store.ManagedActiveCount | controllers/managerController.js:351-358 | counting a manager's active employees in the table equals counting the active ones among the manager's employees, and is at most their number |
| Store.Managed | controllers/managerController.js:79 | `Employee.find({ managerId })` holds exactly the employees of the table that the manager manages, and no more documents than the table |
| Store.CountActiveAppend | controllers/adminController.js:219 | the active count of a concatenation is the sum of the counts |
| Store.SaveAt | models/Admin.js:4-55 | a save succeeds exactly when the validators pass and no other document has the username or the email; it reports a duplicate key exactly when they pass but one does; a successful save stores the hooked document |
| Store.PutKeepsUnique | models/Admin.js:8 | writing a document that clashes with no other keeps the unique indexes |
| Store.PreSaveStores | models/Admin.js:45-55 | a document that passes validation, after the hook, is a valid stored document |
| Store.SavePreservesTable | models/Employee.js:4-69 | a successful save keeps a table valid (unique indexes, every document validated, hashed and normalised) |
| Store.ResaveSucceeds | models/Manager.js:54-64 | re-saving a stored document with its username and email unchanged always succeeds |
| Store.Db.Save | models/Manager.js:4-64 | `save()` updates its own table exactly as `SaveAt` says, leaves it untouched on failure, leaves the other tables alone, and keeps every table valid |
| Passport.CheckCredentials | config/passport.js:15-26 | the lookup finds the first document whose username or email is the identifier (active only for managers and employees); the result is verified exactly when one is found and its password compares |
| Passport.OwnCredentialsVerify | config/passport.js:35-58 | a stored account, active where that applies, logs in with its own username and password unless another account's email equals that username |
| Passport.InactiveAccountRefused | config/passport.js:40-43 | when every matching manager or employee is inactive, the lookup finds nothing, whatever the password |
| Passport.LocalStrategy | config/passport.js:10-32 | a strategy authenticates exactly when the credential check verifies, binding that stored, active-where-applicable user; otherwise "Admin not found" (or "... not found or inactive") for no match and "Invalid credentials" for a wrong password (same for config/passport.js:61-84) |
| Passport.SerializeUser | config/passport.js:86-88 | the session keeps only the user's id and role |
| Passport.CollectionOf | config/passport.js:94-104 | a role names at most one collection, whose role it is; an unrecognised role names none |
| Passport.DeserializeUser | config/passport.js:90-110 | a user is found exactly when the role names a collection that has the id; it is that document, and `isActive` is not consulted |
| Passport.FindSessionUserAgrees | controllers/managerController.js:429 | a web handler's `findById(req.session.user.id)` on its own collection finds the session user exactly when `deserializeUser` binds that user to that collection, so a session user of another role is never found there |
| Passport.SessionRoundTrip | config/passport.js:86-110 | deserialising the session of a stored user gives back the same collection, id and document |
| Auth.VerifyToken | middleware/auth.js:20-34 | no token is 401 "No token, authorization denied"; an invalid one is 401 "Token is not valid"; any valid token is accepted, whatever its role |
| Auth.RoleAuth | middleware/auth.js:37-115 | `adminAuth`/`managerAuth`/`employeeAuth`: no token or an invalid one is 401; a valid token of another role is 403; a missing (or, for managers and employees, inactive) account is 401; a user is bound exactly when the token verifies, carries the gate's role and names an existing, active-where-applicable account, and it is that account; 403 exactly for a valid token of the wrong role |
| Auth.AdminOrManagerAuth | middleware/auth.js:118-151 | only admin and manager tokens pass the role test (403 otherwise); an admin needs only to exist, a manager must exist ("User not found") and be active ("Manager account is inactive") |
| Auth.WebAuth | middleware/auth.js:154-299 | the session's user is tried first and the token only if that binds nobody; either path binds only an existing, active-where-applicable account of the gate's role; otherwise 401 "Authentication required" |
| Auth.RoleNamesDistinct | models/Manager.js:34-37 | the three roles are pairwise different |
| Auth.IssuedTokenRole | middleware/auth.js:7-17 | a login token for an account of one collection verifies to its claims, and its role matches another collection's gate exactly when it is the same collection |
| Handlers.LookupExcludesClash | controllers/adminController.js:17-23 | when no document has the username or the email, the new document clashes with none |
| Handlers.Create | controllers/managerController.js:207-232 | the create handlers: an existing username or email stops the request with nothing written; otherwise the save fails only on a validator, never on a duplicate key, and a success appends exactly the hashed new document (same in controllers/adminController.js:17-37, 247-265) |
| Handlers.Login | controllers/adminController.js:53-81 | unknown identity is 401 ("Invalid credentials" for admins, "Invalid credentials or account inactive" otherwise); a wrong password is 401 "Invalid credentials"; success is 200 with a token for that account and its public form, which has exactly the plain object's non-secret keys with that account's values; 200 exactly when the check verifies (same in controllers/managerController.js:11-40, controllers/employeeController.js:10-39) |
| Handlers.WithPassword | controllers/adminController.js:119 | assigning a new password changes only that path |
| Handlers.ChangePassword | controllers/adminController.js:111-128 | a wrong current password is 400 and nothing changes; a new password shorter than 6 fails the save (500) and nothing changes; otherwise 200, only that document changes, and afterwards exactly the new password compares equal (same in controllers/managerController.js:102-119, controllers/employeeController.js:75-92) |
| Handlers.Amended | controllers/adminController.js:152-156 | each supplied field is assigned through its setter and every other path keeps its value; `managerId` only on an employee |
| Handlers.EmptyEditIsIdentity | controllers/adminController.js:152-156 | an update that supplies no field changes nothing |
| Handlers.AmendIdempotent | controllers/adminController.js:152-156 | an updated document stays normalised, and applying the same update twice equals applying it once |
| Handlers.CheckEdit | controllers/adminController.js:357-377 | the checks in their order, each an iff: "Username already exists" exactly when a changed username is held by another document; "Email already exists" exactly when the username passes and a changed email is held by another document; a rejected manager exactly when both pass and a changed `managerId` names no existing active manager; clear exactly when none fails |
| Handlers.CheckedEditKeepsIndexes | controllers/managerController.js:281-293 | an update that passes the uniqueness checks never hits a unique index when it is saved |
| Handlers.Update | controllers/adminController.js:131-173 | the checks answer 400 with their message; otherwise the save succeeds exactly when the validators pass (and, unchecked, no index clashes); success changes only that document and only in the supplied fields; failure is 500 with nothing changed (same in controllers/managerController.js:122-165, controllers/employeeController.js:129-172) |
| Handlers.Toggled | controllers/adminController.js:313 | only `isActive` changes, and it is negated; `createdBy` and `managerId` are kept |
| Handlers.ToggleInvolution | controllers/managerController.js:337-338 | toggling twice gives back the original document |
| Handlers.Toggle | controllers/adminController.js:313-314 | the document becomes its toggled self and is saved; the other documents and tables are unchanged |
| Handlers.IssueReset | controllers/adminController.js:185-190 | the corrected reset: the SHA-256 of the token is stored with an expiry ten minutes out, and nothing else changes |
| Handlers.ClearReset | controllers/adminController.js:196-198 | the rollback leaves neither a token nor an expiry, and nothing else changes |
| Handlers.RollbackUndoesIssue | controllers/managerController.js:186-190 | rolling back an issued reset gives the document as it was before, without reset fields, and the raw token is never what is stored |
| Handlers.IssueResetAsWritten | controllers/adminController.js:187-188 | as written, only the token hash is stored; the expiry goes to an undeclared path and is dropped |
| Handlers.AsWrittenResetNeverExpires | controllers/adminController.js:188 | as written, a first reset stores a token with no expiry, unlike the corrected version |
| Handlers.ForgotPassword | controllers/managerController.js:168-199 | as written: no matching email (and, for managers and employees, active account) is 404 with nothing written; otherwise only the token hash is stored, the expiry staying as it was, and 200; when the mail throws, only the token is cleared and 500 (same in controllers/adminController.js:176-207, controllers/employeeController.js:95-126) |
| Handlers.ClearResetAsWritten | controllers/managerController.js:188-190 | the rollback as written clears the token and leaves a stored expiry as it was, and nothing else changes |
| Handlers.ForgotPasswordCorrected | controllers/managerController.js:168-199 | the corrected handler: the same lookup and answers, with the expiry stored ten minutes out and both fields cleared by the rollback |
| Handlers.Tally | controllers/adminController.js:217-224 | the total is the number of documents, active plus inactive equals the total, and active counts the active ones |
| AdminController.Register | controllers/adminController.js:12-50 | an admin with the username or the email is 400 with nothing written; otherwise 201 exactly when the validators accept the new admin, appending exactly it, hashed, and returning a token for it; otherwise 500 with nothing written |
| AdminController.CreateManager | controllers/adminController.js:240-284 | a taken username or email is 400; otherwise 201 exactly when the validators accept the new manager, appending exactly it, active, with role manager and `createdBy` the caller; any failure writes nothing |
| AdminController.CreateManagerWeb | controllers/adminController.js:484-525 | as `createManager` with `createdBy` taken from the session: with a session and a free username and email, 201 exactly when the validators accept the new manager; without a session no manager is ever created |
| AdminController.AddManager | controllers/adminController.js:247-280 | the shared create-manager body: 400 for a taken username or email; otherwise 201 exactly when the validators accept the new active manager with its `createdBy`; otherwise 500 with the handler's message, writing nothing |
| AdminController.UpdateManager | controllers/adminController.js:409-458 | an unknown id is 404 "Manager not found"; a changed username another manager holds is 400 "Username already exists"; otherwise a changed email another manager holds is 400 "Email already exists"; otherwise 200 exactly when the validators accept the edited manager, and 500 "Server error" when not; 200 changes only that manager, by the supplied fields |
| AdminController.UpdateEmployee | controllers/adminController.js:345-406 | an unknown id is 404; then, in order, 400 "Username already exists", 400 "Email already exists" and 400 "Invalid or inactive manager" exactly when their check is the first to fail; otherwise 200 exactly when the validators accept the edited employee, and 500 when not; a 200 that reassigns the employee always reassigns it to an existing active manager |
| AdminController.ToggleStatus | controllers/adminController.js:304-324 | an unknown id is 404; otherwise 200, and that document's `isActive` is negated whoever created or manages it (same in controllers/adminController.js:461-481, 528-563) |
| AdminController.GetDashboardStats | controllers/adminController.js:217-224 | for managers and for employees, the total is the collection's size, active is the number of active documents, and active plus inactive equals the total |
| ManagerController.SessionManager | controllers/managerController.js:401-402 | the manager the web form of `addEmployee` files the employee under: none without a session user or for a session user of another role, otherwise the session user's id |
| ManagerController.AddEmployee | controllers/managerController.js:202-249 | a taken username or email is 400; otherwise 201 exactly when the validators accept the new employee, appending exactly it, active, with `managerId` and `createdBy` both the calling manager; with no manager (a web request without session) nothing is created (same for controllers/managerController.js:375-418) |
| ManagerController.ScopedLookup | controllers/managerController.js:275-278 | `findOne({_id, managerId})` finds a document exactly when that id is one of the caller's employees, and then it is that id |
| ManagerController.UpdateEmployee | controllers/managerController.js:269-321 | another manager's or a missing employee is 404 with nothing written; for the caller's own, 400 "Username already exists" or "Email already exists" exactly when that check is the first to fail, otherwise 200 exactly when the validators accept the edit and 500 when not; 200 changes only that employee, by the supplied fields, and it stays the caller's |
| ManagerController.ToggleEmployee | controllers/managerController.js:324-348 | a caller that is no manager, or an employee that is not the calling manager's, is 404 with nothing written; otherwise `isActive` is negated and the employee stays the caller's; the web form without a session is 500 with nothing written (same for controllers/managerController.js:449-465) |
| ManagerController.ChangePasswordWeb | controllers/managerController.js:421-446 | a missing password is 400 "All fields are required"; no session user is 500; a session user who is no manager (another role, or no such manager) is 404 "Manager not found"; then a wrong current password is 400 "Current password is incorrect", a new password the validator refuses is 500, and otherwise 200 after which exactly the new password compares |
| ManagerController.GetStats | controllers/managerController.js:351-372 | the counts by `countDocuments` with inactive by subtraction equal the dashboard's in-memory counts of the manager's employees (controllers/managerController.js:83-87) |
| EmployeeController.UpdateProfileWeb | controllers/employeeController.js:238-264 | no session user is 500; a session user who is no employee (another role, or no such employee) is 404; otherwise, with no uniqueness check, the update succeeds exactly when the validators pass and no other employee has the username or email, and a failure is 500 with nothing written |
| EmployeeController.UncheckedDuplicateRefusedByIndex | controllers/employeeController.js:245-251 | taking another employee's username through the web form collides with the unique index |
| AdminRoutes.IssueRawReset | routes/admin.js:51-53 | the inline handler stores the raw token and an expiry one hour out, and nothing else changes |
| AdminRoutes.RouteResetDiffersFromController | routes/admin.js:51-53 | the routed reset stores a different token and a different expiry from the controllers' reset for the same request, and is otherwise the same document |
| AdminRoutes.ForgotPasswordRoute | routes/admin.js:41-65 | no admin with the email is 404 with nothing written; otherwise the raw reset is saved, and it stays saved even when the mail throws (500 "Server error") |
| AdminRoutes.Serve | routes/admin.js:12-88 | registration, login and forgot-password answer as their handlers decide, whatever the token; on every other endpoint, a token that binds no admin is answered 401 or 403 with nothing written, and a token that binds one is never 401 or 403 and gets its handler's decision for that admin (as `ServeAdmin` states); a toggle of a known id negates that document's `isActive`; change-password and update-profile write only the bound admin's document; the read-only endpoints write nothing |
| AdminRoutes.ServeOpen | routes/admin.js:12-20 | with no gate, whatever the token: registration is 400 for a taken username or email and otherwise 201 exactly when the new admin is valid; login is 200 exactly when the credentials verify and writes nothing; forgot-password is 404 for an unknown email and otherwise 200 exactly when the mail does not throw |
| AdminRoutes.ServeAdmin | routes/admin.js:23-88 | once `adminAuth` binds an admin, each endpoint answers as its handler decides for that admin: profile and the listings are 200 and write nothing; change-password is 400 for a wrong current password, 500 for a too-short new one, else 200; update-profile is 400 for a username or email another admin holds, else 200 exactly when the edit is valid; add-manager is 400 for a taken username or email, else 201 exactly when the new manager created by the caller is valid; a toggle is 404 for an unknown id, else 200 with that document's `isActive` negated; the password and profile updates touch only the caller |

## Left out

- Unicode: `trim` removes the ASCII white space, the no-break space, the byte-order mark and the line and paragraph separators, not every Unicode space; `lowercase` is modelled for the ASCII letters only.
- Accounts.SchemaValid: the username and password lengths count Unicode scalar values, while `minlength`/`maxlength` count UTF-16 code units. A value with characters outside the Basic Multilingual Plane is counted shorter than the schema counts it (two such characters are length 2 here and 4 there), so such a username can be refused here and accepted there, or the reverse at the upper bound.
- Accounts.ToObject: the `__v` version key that `toObject()` adds is left out; no decision reads it, and `toJSON` passes it through unchanged.
- bcrypt, SHA-256, HS256 and `crypto.randomBytes` are ideal primitives or parameters. Salts, the clock, the random reset token and whether the mailer throws are also parameters.
- Mail delivery (utils/email.js) is not part of this model. The reset mailer there catches its own errors and returns `false`, so with it the rollback branch of the controllers' `forgotPassword` and the 500 of the inline route never run. The model keeps the failure as a parameter so that both branches are stated as the handlers are written.
- The welcome mails of `createManager`/`addEmployee` are caught and cannot change the answer, so they are not modelled.
- Schema paths that no decision reads are left out, because they are copied and never checked: `image` and the upload middleware, `timestamps`, and `firstName`/`lastName`/`department`/`position`/`salary`/`address`. The last group is not declared on any schema, so strict mode drops them anyway.
- The listings are left out because they only present data: `getManagers`, `getEmployees`, the profile and dashboard pages with `populate` and `sort`. The model keeps only their counts and their write-nothing behaviour.
- The first `getDashboard` of controllers/employeeController.js is replaced by the second one in the same class, so only the second would run. Neither is modelled beyond that.
- The admin controller's own `forgotPassword` is not routed: routes/admin.js defines its own handler. `Handlers.ForgotPassword` still models it, since the manager and employee routes use theirs.
- Handlers.ForgotPasswordCorrected is the handler with the reset fix below applied; no route runs it. The routes' behaviour is `Handlers.ForgotPassword`, as written.
- Database failures, malformed ids (`CastError`), the gates' outer "Authentication failed" catch and a thrown `bcrypt.compare` are left out. Each is a 500 or 401 that the model does not produce. The one exception kept is the web handlers' missing session, which is modelled because it is a plain `TypeError` on `req.session.user.id`.
- Header parsing is left out: the bearer token reaches the gates already stripped of `Bearer `, with an empty token treated as none.
- Concurrency is left out, along with the check-then-insert race on uniqueness. The model is one request at a time.
- There is no reset-consumption endpoint in this code, so none is modelled.
- routes/manager.js and routes/employee.js, server.js and config/database.js are not part of this model.
- AdminRoutes.Serve: the listings' bodies are replaced by their message alone.
- ManagerController.AddEmployee: the web form with a session user of another role (an admin's session with a manager's bearer token passes `managerWebAuth`) is not modelled as the source runs it. The source saves an employee whose `managerId` and `createdBy` are that user's id, which names no manager. Model ids are positions in one collection and cannot hold a foreign id, so `SessionManager` gives no manager and no employee is created. Either way no manager gains the employee.
- AdminController.CreateManagerWeb: with a session user of another role, the source stores that user's id as `createdBy`; the model stores the same number, read as an admin position. No decision reads a manager's `createdBy`.

## Findings

| source | as written | input that shows it | evidently intended | confidence | as-written member | corrected member |
|---|---|---|---|---|---|---|
| controllers/adminController.js:188 | the three controllers' `forgotPassword` assign `resetPasswordExpire`, a path no schema declares (models/Admin.js:39 has `resetPasswordExpires`), so strict mode drops it and the stored token has no expiry; the rollback's `resetPasswordExpire = undefined` is dropped the same way (`Handlers.ForgotPassword` models the handler as written) | any active account with no earlier reset requests one: afterwards `resetPasswordToken` is set and `resetPasswordExpires` is absent (also controllers/managerController.js:180, controllers/employeeController.js:107) | store the expiry ten minutes out in `resetPasswordExpires` | high (not executed) | Handlers.AsWrittenResetNeverExpires | Handlers.ForgotPasswordCorrected |

=== FILE: accounts.dfy ===
/**
 * The account documents of models/Admin.js, models/Manager.js and
 * models/Employee.js.  The three schemas share one shape; what differs per
 * role (the `isActive` flag and the `createdBy`/`managerId` references) is
 * carried by the `Tier` of the record.
 *
 * A document is a value here.  Its schema behaviour is modelled as the
 * document layer applies it: setters (`trim`, `lowercase`) when a field is
 * assigned, validators (`required`, `minlength`, `maxlength`) before a save,
 * then the pre-save hook that hashes a modified password, and `toJSON` when a
 * document leaves the system.
 */
module Accounts {
  import opened Wrappers
  import opened Crypto

  /** A document id.  Tables are append-only, so an id is a position in its table. */
  type Id = nat

  /** The three collections: Admin, Manager, Employee. */
  datatype Collection = Admins | Managers | Employees

  const ADMIN_ROLE: string := "admin"
  const MANAGER_ROLE: string := "manager"
  const EMPLOYEE_ROLE: string := "employee"

  /** The `role` default of each schema; the controllers also pass exactly this value. */
  function RoleName(c: Collection): string
  {
    match c
    case Admins => ADMIN_ROLE
    case Managers => MANAGER_ROLE
    case Employees => EMPLOYEE_ROLE
  }

  /**
   * The `password` path: a plaintext while it is modified and not yet saved,
   * a bcrypt digest once the pre-save hook has run.
   */
  datatype PasswordField = Plain(text: string) | Hashed(digest: Digest)

  /** The role-specific paths.  The Admin schema has no `isActive`. */
  datatype Tier =
    | AdminTier
    | ManagerTier(isActive: bool, createdBy: Option<Id>)
    | EmployeeTier(isActive: bool, createdBy: Option<Id>, managerId: Option<Id>)

  /** The schema paths that a document persists (timestamps and the image path are not modelled). */
  datatype Account = Account(
    username: string,
    email: string,
    phone: string,
    password: PasswordField,
    role: string,
    tier: Tier,
    resetPasswordToken: Option<ResetToken>,
    resetPasswordExpires: Option<int>)

  /** The `isActive: true` query condition; never true of an admin, which has no such path. */
  predicate IsActive(a: Account)
  {
    !a.tier.AdminTier? && a.tier.isActive
  }

  // ---------------------------------------------------------------------------
  // Setters: `trim` (username, email, phone) and `lowercase` (email)
  // ---------------------------------------------------------------------------

  /** The white space `String.prototype.trim` removes, restricted to the common code points. */
  predicate IsSpace(c: char)
  {
    c == ' ' || c == '\t' || c == '\n' || c == '\r' || c == '\U{000B}' || c == '\U{000C}'
    || c == '\U{00A0}' || c == '\U{FEFF}' || c == '\U{2028}' || c == '\U{2029}'
  }

  /** Drops leading white space. */
  function TrimStart(s: string): string
  {
    if s != [] && IsSpace(s[0]) then TrimStart(s[1..]) else s
  }

  /**
   * What `TrimStart` leaves is a suffix of its input that does not start with
   * white space, and everything it drops is white space.
   */
  lemma {:induction false} TrimStartShape(s: string)
    ensures |TrimStart(s)| <= |s| && TrimStart(s) == s[|s| - |TrimStart(s)|..]
    ensures TrimStart(s) == [] || !IsSpace(TrimStart(s)[0])
    ensures forall k :: 0 <= k < |s| - |TrimStart(s)| ==> IsSpace(s[k])
  {
    if s != [] && IsSpace(s[0]) {
      var tail := s[1..];
      TrimStartShape(tail);
      assert TrimStart(s) == TrimStart(tail);
      assert tail[|tail| - |TrimStart(tail)|..] == s[|s| - |TrimStart(s)|..];
      forall k | 1 <= k < |s| - |TrimStart(s)|
        ensures IsSpace(s[k])
      {
        assert s[k] == tail[k - 1];
      }
    }
  }

  /** Drops trailing white space. */
  function TrimEnd(s: string): string
  {
    if s != [] && IsSpace(s[|s| - 1]) then TrimEnd(s[..|s| - 1]) else s
  }

  /**
   * What `TrimEnd` leaves is a prefix of its input that does not end with
   * white space, and everything it drops is white space.
   */
  lemma {:induction false} TrimEndShape(s: string)
    ensures |TrimEnd(s)| <= |s| && TrimEnd(s) == s[..|TrimEnd(s)|]
    ensures TrimEnd(s) == [] || !IsSpace(TrimEnd(s)[|TrimEnd(s)| - 1])
    ensures forall k :: |TrimEnd(s)| <= k < |s| ==> IsSpace(s[k])
  {
    if s != [] && IsSpace(s[|s| - 1]) {
      TrimEndShape(s[..|s| - 1]);
    }
  }

  /**
   * The `trim: true` setter: the result is the slice of the input left once
   * the white space at both ends is dropped, so only white space is removed
   * and none is left at either end.
   */
  function Trim(s: string): (r: string)
    ensures |r| <= |s|
    ensures Trimmed(r)
    ensures exists i, j :: 0 <= i <= j <= |s| && r == s[i..j]
                           && (forall k :: 0 <= k < i ==> IsSpace(s[k]))
                           && (forall k :: j <= k < |s| ==> IsSpace(s[k]))
  {
    var u := TrimStart(s);
    TrimStartShape(s);
    TrimEndShape(u);
    var i := |s| - |u|;
    var j := i + |TrimEnd(u)|;
    assert TrimEnd(u) == s[i..j];
    assert forall k :: j <= k < |s| ==> s[k] == u[k - i];
    TrimEnd(u)
  }

  function LowerChar(c: char): char
  {
    if 'A' <= c <= 'Z' then (c as int + 32) as char else c
  }

  /** The `lowercase: true` setter, for the ASCII letters. */
  function Lower(s: string): string
  {
    seq(|s|, i requires 0 <= i < |s| => LowerChar(s[i]))
  }

  predicate LowerCased(s: string)
  {
    forall i :: 0 <= i < |s| ==> !('A' <= s[i] <= 'Z')
  }

  /** The email path runs `lowercase` and then `trim`. */
  function NormEmail(s: string): string
  {
    Trim(Lower(s))
  }

  /** No white space at either end: what `trim` leaves. */
  predicate Trimmed(s: string)
  {
    s == [] || (!IsSpace(s[0]) && !IsSpace(s[|s| - 1]))
  }

  /** A string with no white space at either end is its own trim. */
  lemma {:induction false} TrimFixesTrimmed(s: string)
    requires Trimmed(s)
    ensures Trim(s) == s
  {
    assert TrimStart(s) == s;
    assert TrimEnd(s) == s;
  }

  /** Trimming twice is trimming once. */
  lemma TrimIdempotent(s: string)
    ensures Trim(Trim(s)) == Trim(s)
  {
    TrimFixesTrimmed(Trim(s));
  }

  /** A normalised email has no upper-case letter and no white space at either end. */
  lemma {:induction false} NormEmailShape(s: string)
    ensures Trimmed(NormEmail(s)) && LowerCased(NormEmail(s))
  {
    var t := Trim(Lower(s));
    var u := TrimStart(Lower(s));
    TrimStartShape(Lower(s));
    TrimEndShape(u);
    assert u == Lower(s)[|Lower(s)| - |u|..];
    assert t == u[..|t|];
    forall i | 0 <= i < |t| ensures !('A' <= t[i] <= 'Z') {
      assert t[i] == u[i] == Lower(s)[|Lower(s)| - |u| + i];
    }
  }

  /** An email already in normal form is left alone by the setters. */
  lemma {:induction false} NormEmailFixes(s: string)
    requires Trimmed(s) && LowerCased(s)
    ensures NormEmail(s) == s
  {
    assert Lower(s) == s;
    TrimFixesTrimmed(s);
  }

  /** Normalising an email twice is normalising it once. */
  lemma NormEmailIdempotent(s: string)
    ensures NormEmail(NormEmail(s)) == NormEmail(s)
  {
    NormEmailShape(s);
    NormEmailFixes(NormEmail(s));
  }

  /** The stored form of every path that has a setter. */
  predicate Normalized(a: Account)
  {
    Trimmed(a.username) && Trimmed(a.email) && LowerCased(a.email) && Trimmed(a.phone)
  }

  /** Assigning a stored value to its path again changes nothing. */
  lemma NormalizedIsFixpoint(a: Account)
    requires Normalized(a)
    ensures Trim(a.username) == a.username && NormEmail(a.email) == a.email && Trim(a.phone) == a.phone
  {
    TrimFixesTrimmed(a.username);
    TrimFixesTrimmed(a.phone);
    NormEmailFixes(a.email);
  }

  // ---------------------------------------------------------------------------
  // Validators
  // ---------------------------------------------------------------------------

  const USERNAME_MIN_LENGTH: nat := 3
  const USERNAME_MAX_LENGTH: nat := 50
  const PASSWORD_MIN_LENGTH: nat := 6

  /**
   * The schema validators a save runs before its hooks: `username` required,
   * 3 to 50 characters; `email` and `phone` required; `password` required with
   * at least 6 characters (checked on the plaintext, since validation precedes
   * the hash hook; a stored digest is always long enough); `createdBy` required
   * for managers, `createdBy` and `managerId` required for employees.
   */
  predicate SchemaValid(a: Account)
  {
    && USERNAME_MIN_LENGTH <= |a.username| <= USERNAME_MAX_LENGTH
    && a.email != []
    && a.phone != []
    && (a.password.Plain? ==> |a.password.text| >= PASSWORD_MIN_LENGTH)
    && (a.tier.ManagerTier? ==> a.tier.createdBy.Some?)
    && (a.tier.EmployeeTier? ==> a.tier.createdBy.Some? && a.tier.managerId.Some?)
  }

  /** The tier a collection's documents have. */
  predicate InCollection(a: Account, c: Collection)
  {
    && a.role == RoleName(c)
    && match c
       case Admins => a.tier.AdminTier?
       case Managers => a.tier.ManagerTier?
       case Employees => a.tier.EmployeeTier?
  }

  /**
   * `new Model({...})`: every setter runs, the password is the (modified)
   * plaintext, `role` is the schema's role and `isActive` takes its default
   * `true`; `createdBy`/`managerId` are whatever the caller passes, possibly
   * nothing (the validators reject that later).
   */
  function NewAccount(c: Collection, username: string, email: string, phone: string, password: string,
                      createdBy: Option<Id>, managerId: Option<Id>): (a: Account)
    ensures a.username == Trim(username) && a.email == NormEmail(email) && a.phone == Trim(phone)
    ensures InCollection(a, c) && Normalized(a)
    ensures a.password == Plain(password)
    ensures IsActive(a) <==> c != Admins
    ensures a.resetPasswordToken.None? && a.resetPasswordExpires.None?
    ensures c == Managers ==> a.tier.createdBy == createdBy
    ensures c == Employees ==> a.tier.createdBy == createdBy && a.tier.managerId == managerId
  {
    NormEmailShape(email);
    var tier := match c
      case Admins => AdminTier
      case Managers => ManagerTier(true, createdBy)
      case Employees => EmployeeTier(true, createdBy, managerId);
    Account(Trim(username), NormEmail(email), Trim(phone), Plain(password), RoleName(c), tier, None, None)
  }

  // ---------------------------------------------------------------------------
  // Pre-save hook and comparePassword
  // ---------------------------------------------------------------------------

  /** `comparePassword(candidate)`: bcrypt comparison against the stored digest. */
  predicate ComparePassword(a: Account, candidate: string)
  {
    a.password.Hashed? && BcryptCompare(candidate, a.password.digest)
  }

  /**
   * The pre('save') hook: a modified password (a plaintext) is replaced by its
   * salted digest; an unmodified one, already a digest, is left as it is.
   */
  function PreSave(a: Account, salt: nat): (r: Account)
    ensures r.password.Hashed?
    ensures r.(password := a.password) == a
    ensures a.password.Hashed? ==> r == a
    ensures a.password.Plain? ==> forall q :: ComparePassword(r, q) <==> q == a.password.text
  {
    if a.password.Plain? then a.(password := Hashed(BcryptHash(salt, a.password.text))) else a
  }

  // ---------------------------------------------------------------------------
  // toObject / toJSON
  // ---------------------------------------------------------------------------

  /** The values a plain object made from a document can hold. */
  datatype Value =
    | Text(text: string)
    | Flag(flag: bool)
    | ObjectId(id: Id)
    | Timestamp(ms: int)
    | PasswordValue(password: PasswordField)
    | TokenValue(token: ResetToken)

  /** The paths `toJSON` deletes. */
  const SECRET_PATHS: set<string> := {"password", "resetPasswordToken", "resetPasswordExpires"}

  function RefPath(path: string, r: Option<Id>): map<string, Value>
  {
    if r.Some? then map[path := ObjectId(r.value)] else map[]
  }

  /** The paths every document has, keyed by their name. */
  function CommonPaths(id: Id, a: Account): map<string, Value>
  {
    map["_id" := ObjectId(id), "username" := Text(a.username), "email" := Text(a.email),
        "phone" := Text(a.phone), "password" := PasswordValue(a.password), "role" := Text(a.role)]
  }

  /** The role-specific paths that are set. */
  function TierPaths(a: Account): map<string, Value>
  {
    match a.tier
    case AdminTier => map[]
    case ManagerTier(active, creator) => map["isActive" := Flag(active)] + RefPath("createdBy", creator)
    case EmployeeTier(active, creator, m) => map["isActive" := Flag(active)] + RefPath("createdBy", creator) + RefPath("managerId", m)
  }

  /** The reset paths that are set. */
  function ResetPaths(a: Account): map<string, Value>
  {
    var token := if a.resetPasswordToken.Some? then map["resetPasswordToken" := TokenValue(a.resetPasswordToken.value)] else map[];
    var expires := if a.resetPasswordExpires.Some? then map["resetPasswordExpires" := Timestamp(a.resetPasswordExpires.value)] else map[];
    token + expires
  }

  /** `toObject()`: every path that is set, keyed by its name. */
  function ToObject(id: Id, a: Account): map<string, Value>
  {
    CommonPaths(id, a) + TierPaths(a) + ResetPaths(a)
  }

  /** Passwords and reset tokens sit only under the secret paths of a document's plain object. */
  lemma PublicPathsHoldNoSecret(id: Id, a: Account)
    ensures forall k :: k in ToObject(id, a) && k !in SECRET_PATHS ==>
              !ToObject(id, a)[k].PasswordValue? && !ToObject(id, a)[k].TokenValue?
  {
    assert forall k :: k in TierPaths(a) ==> !TierPaths(a)[k].PasswordValue? && !TierPaths(a)[k].TokenValue?;
    assert forall k :: k in CommonPaths(id, a) && k != "password" ==>
             !CommonPaths(id, a)[k].PasswordValue? && !CommonPaths(id, a)[k].TokenValue?;
  }

  /**
   * `toJSON()`: copy the document to a plain object and delete the three
   * secret paths from the copy.  Every other path is kept with its value, and
   * no password or reset token is left anywhere in the result.
   */
  method ToJson(id: Id, a: Account) returns (obj: map<string, Value>)
    ensures obj.Keys == ToObject(id, a).Keys - SECRET_PATHS
    ensures forall k :: k in obj ==> obj[k] == ToObject(id, a)[k]
    ensures forall k :: k in obj ==> !obj[k].PasswordValue? && !obj[k].TokenValue?
  {
    PublicPathsHoldNoSecret(id, a);
    obj := ToObject(id, a);
    obj := obj - {"password"};
    obj := obj - {"resetPasswordToken"};
    obj := obj - {"resetPasswordExpires"};
  }

  /** An admin's public form has no `isActive` path; a manager's and an employee's always has one. */
  lemma ActiveFlagOnlyOnManagedTiers(id: Id, a: Account)
    ensures "isActive" in ToObject(id, a) <==> !a.tier.AdminTier?
  {
  }
}

=== FILE: admin_controller.dfy ===
/**
 * controllers/adminController.js: the handlers an admin reaches.  Login,
 * change-password, update-profile and forgot-password are the shared handlers
 * of the Handlers module applied to the admin collection; what is particular
 * to the admin is here.
 */
module AdminController {
  import opened Wrappers
  import opened Accounts
  import opened Store
  import opened Tokens
  import opened Passport
  import opened Handlers

  /**
   * `register`: 400 when an admin already has the username or the email (and
   * nothing is created); otherwise the new admin is saved (500 when a
   * validator refuses it) and answered with 201, a token for it and its public
   * form.
   */
  method Register(db: Db, username: string, email: string, phone: string, password: string,
                  salt: nat, secret: string, nowMs: int) returns (res: Response)
    requires db.Valid()
    modifies db
    ensures db.Valid()
    ensures FindOne(old(db.admins), ByUsernameOrEmail(username, email)).Some? ==>
              res == Reply(BAD_REQUEST, "Admin with this username or email already exists") && db.admins == old(db.admins)
    ensures FindOne(old(db.admins), ByUsernameOrEmail(username, email)).None? ==>
              (res.status == CREATED <==> SchemaValid(NewAccount(Admins, username, email, phone, password, None, None)))
    ensures res.status == CREATED ==>
              && FindOne(old(db.admins), ByUsernameOrEmail(username, email)).None?
              && |db.admins| == |old(db.admins)| + 1
              && db.admins[..|old(db.admins)|] == old(db.admins)
              && db.admins[|old(db.admins)|] == PreSave(NewAccount(Admins, username, email, phone, password, None, None), salt)
              && res.token == Some(GenerateToken(|old(db.admins)|, db.admins[|old(db.admins)|], secret, nowMs))
    ensures res.status != CREATED ==> db.admins == old(db.admins)
    ensures res.status == CREATED || res.status == BAD_REQUEST || res.status == SERVER_ERROR
    ensures forall d :: d != Admins ==> db.Table(d) == old(db.Table(d))
  {
    var r := Create(db, Admins, username, email, phone, password, None, None, salt);
    match r
    case AlreadyExists =>
      res := Reply(BAD_REQUEST, "Admin with this username or email already exists");
    case NotSaved =>
      res := Reply(SERVER_ERROR, SERVER_ERROR_MESSAGE);
    case Created(id, doc) =>
      assert db.admins[..id] == old(db.admins);
      var token := GenerateToken(id, doc, secret, nowMs);
      var json := ToJson(id, doc);
      res := Response(CREATED, "Admin registered successfully", Some(token), Some(json));
  }

  /**
   * `createManager`: 400 when a manager already has the username or the
   * email; otherwise a manager created by the calling admin, active, with the
   * manager role, or 500 when a validator refuses it.  The welcome mail's
   * failure is caught and does not change the answer.
   */
  method CreateManager(db: Db, caller: Id, username: string, email: string, phone: string, password: string,
                       salt: nat) returns (res: Response)
    requires db.Valid()
    modifies db
    ensures db.Valid()
    ensures FindOne(old(db.managers), ByUsernameOrEmail(username, email)).Some? ==>
              res == Reply(BAD_REQUEST, "Manager with this username or email already exists")
    ensures FindOne(old(db.managers), ByUsernameOrEmail(username, email)).None? ==>
              (res.status == CREATED <==> SchemaValid(NewAccount(Managers, username, email, phone, password, Some(caller), None)))
    ensures res.status == CREATED ==>
              && |db.managers| == |old(db.managers)| + 1
              && db.managers[..|old(db.managers)|] == old(db.managers)
              && db.managers[|old(db.managers)|] == PreSave(NewAccount(Managers, username, email, phone, password, Some(caller), None), salt)
              && db.managers[|old(db.managers)|].tier.createdBy == Some(caller)
              && db.managers[|old(db.managers)|].role == MANAGER_ROLE
              && IsActive(db.managers[|old(db.managers)|])
    ensures res.status != CREATED ==> db.managers == old(db.managers)
    ensures res.status == CREATED || res.status == BAD_REQUEST || res.status == SERVER_ERROR
    ensures forall d :: d != Managers ==> db.Table(d) == old(db.Table(d))
  {
    res := AddManager(db, Some(caller), username, email, phone, password, salt,
                      "Manager created successfully", SERVER_ERROR_MESSAGE);
  }

  /**
   * `createManagerWeb`: as `createManager`, but `createdBy` is the session's
   * user id, or null without a session, which the required `createdBy`
   * refuses: no manager is created without a session.
   */
  method CreateManagerWeb(db: Db, session: Option<SessionUser>, username: string, email: string, phone: string,
                          password: string, salt: nat) returns (res: Response)
    requires db.Valid()
    modifies db
    ensures db.Valid()
    ensures FindOne(old(db.managers), ByUsernameOrEmail(username, email)).Some? ==>
              res == Reply(BAD_REQUEST, "Manager with this username or email already exists")
    ensures session.None? ==> res.status != CREATED && db.managers == old(db.managers)
    ensures session.Some? && FindOne(old(db.managers), ByUsernameOrEmail(username, email)).None? ==>
              (res.status == CREATED <==> SchemaValid(NewAccount(Managers, username, email, phone, password, Some(session.value.id), None)))
    ensures res.status == CREATED ==>
              && session.Some?
              && |db.managers| == |old(db.managers)| + 1
              && db.managers[..|old(db.managers)|] == old(db.managers)
              && db.managers[|old(db.managers)|] == PreSave(NewAccount(Managers, username, email, phone, password, Some(session.value.id), None), salt)
    ensures res.status != CREATED ==> db.managers == old(db.managers)
    ensures forall d :: d != Managers ==> db.Table(d) == old(db.Table(d))
  {
    var createdBy := if session.Some? then Some(session.value.id) else None;
    res := AddManager(db, createdBy, username, email, phone, password, salt,
                      "Manager added successfully", "Error adding manager");
  }

  /** The body both create-manager handlers share. */
  method AddManager(db: Db, createdBy: Option<Id>, username: string, email: string, phone: string, password: string,
                    salt: nat, success: string, failure: string) returns (res: Response)
    requires db.Valid()
    modifies db
    ensures db.Valid()
    ensures FindOne(old(db.managers), ByUsernameOrEmail(username, email)).Some? ==>
              res == Reply(BAD_REQUEST, "Manager with this username or email already exists")
    ensures createdBy.None? ==> res.status != CREATED
    ensures FindOne(old(db.managers), ByUsernameOrEmail(username, email)).None? ==>
              (res.status == CREATED <==> SchemaValid(NewAccount(Managers, username, email, phone, password, createdBy, None)))
    ensures res.status == CREATED ==>
              && res.message == success
              && |db.managers| == |old(db.managers)| + 1
              && db.managers[..|old(db.managers)|] == old(db.managers)
              && db.managers[|old(db.managers)|] == PreSave(NewAccount(Managers, username, email, phone, password, createdBy, None), salt)
              && db.managers[|old(db.managers)|].tier.createdBy == createdBy
              && db.managers[|old(db.managers)|].role == MANAGER_ROLE
              && IsActive(db.managers[|old(db.managers)|])
    ensures res.status != CREATED ==> db.managers == old(db.managers)
    ensures res.status != CREATED && res.status != BAD_REQUEST ==> res == Reply(SERVER_ERROR, failure)
    ensures res.status == CREATED || res.status == BAD_REQUEST || res.status == SERVER_ERROR
    ensures forall d :: d != Managers ==> db.Table(d) == old(db.Table(d))
  {
    var r := Create(db, Managers, username, email, phone, password, createdBy, None, salt);
    match r
    case AlreadyExists =>
      res := Reply(BAD_REQUEST, "Manager with this username or email already exists");
    case NotSaved =>
      res := Reply(SERVER_ERROR, failure);
    case Created(id, doc) =>
      assert db.managers[..id] == old(db.managers);
      var json := ToJson(id, doc);
      res := Response(CREATED, success, None, Some(json));
  }

  /**
   * `updateManager`: 404 for an unknown id; otherwise the shared update of the
   * manager's username, email and phone, with the uniqueness checks against
   * the other managers.
   */
  method UpdateManager(db: Db, id: Id, username: string, email: string, phone: string) returns (res: Response)
    requires db.Valid()
    modifies db
    ensures db.Valid()
    ensures id >= |old(db.managers)| ==> res == Reply(NOT_FOUND, "Manager not found") && db.managers == old(db.managers)
    ensures id < |old(db.managers)| ==>
              var t := old(db.managers);
              var e := Edit(username, email, phone, None);
              && (UsernameHeld(t, id, e) ==> res == Reply(BAD_REQUEST, USERNAME_EXISTS))
              && (!UsernameHeld(t, id, e) && EmailHeld(t, id, e) ==> res == Reply(BAD_REQUEST, EMAIL_EXISTS))
              && (!UsernameHeld(t, id, e) && !EmailHeld(t, id, e) ==>
                    (res.status == OK <==> SchemaValid(Amended(t[id], e)))
                    && (res.status != OK ==> res == Reply(SERVER_ERROR, SERVER_ERROR_MESSAGE)))
    ensures res.status == OK ==>
              id < |old(db.managers)|
              && db.managers == old(db.managers)[id := Amended(old(db.managers)[id], Edit(username, email, phone, None))]
    ensures res.status != OK ==> db.managers == old(db.managers)
    ensures forall d :: d != Managers ==> db.Table(d) == old(db.Table(d))
  {
    if id >= |db.managers| {
      return Reply(NOT_FOUND, "Manager not found");
    }
    res := Update(db, Managers, id, Edit(username, email, phone, None), true,
                  "Manager updated successfully", SERVER_ERROR_MESSAGE);
  }

  /**
   * `updateEmployee` (admin): 404 for an unknown id; a supplied `managerId`
   * that differs from the current one must name an existing, active manager
   * (400 otherwise); then the shared update, which may also reassign the
   * employee to that manager.
   */
  method UpdateEmployee(db: Db, id: Id, username: string, email: string, phone: string, managerId: Option<Id>)
    returns (res: Response)
    requires db.Valid()
    modifies db
    ensures db.Valid()
    ensures id >= |old(db.employees)| ==> res == Reply(NOT_FOUND, "Employee not found") && db.employees == old(db.employees)
    ensures id < |old(db.employees)| ==>
              var t := old(db.employees);
              var e := Edit(username, email, phone, managerId);
              && (UsernameHeld(t, id, e) ==> res == Reply(BAD_REQUEST, USERNAME_EXISTS))
              && (!UsernameHeld(t, id, e) && EmailHeld(t, id, e) ==> res == Reply(BAD_REQUEST, EMAIL_EXISTS))
              && (!UsernameHeld(t, id, e) && !EmailHeld(t, id, e) && ManagerRefused(t, old(db.managers), id, e) ==>
                    res == Reply(BAD_REQUEST, INVALID_MANAGER))
              && (!UsernameHeld(t, id, e) && !EmailHeld(t, id, e) && !ManagerRefused(t, old(db.managers), id, e) ==>
                    (res.status == OK <==> SchemaValid(Amended(t[id], e)))
                    && (res.status != OK ==> res == Reply(SERVER_ERROR, SERVER_ERROR_MESSAGE)))
    ensures res.status == OK ==>
              && id < |old(db.employees)|
              && db.employees == old(db.employees)[id := Amended(old(db.employees)[id], Edit(username, email, phone, managerId))]
              && (old(db.employees)[id].tier.EmployeeTier? && managerId.Some? && managerId != old(db.employees)[id].tier.managerId ==>
                    managerId.value < |db.managers| && IsActive(db.managers[managerId.value]))
    ensures res.status != OK ==> db.employees == old(db.employees)
    ensures forall d :: d != Employees ==> db.Table(d) == old(db.Table(d))
  {
    if id >= |db.employees| {
      return Reply(NOT_FOUND, "Employee not found");
    }
    assert Stored(db.employees[id], Employees);
    var e := Edit(username, email, phone, managerId);
    ghost var pre := CheckEdit(db.employees, db.managers, id, e);
    res := Update(db, Employees, id, e, true, "Employee updated successfully", SERVER_ERROR_MESSAGE);
    assert db.Table(Managers) == old(db.Table(Managers));
    assert res.status == OK ==> pre == Clear;
  }

  /**
   * `toggleManagerStatus` and `toggleEmployeeStatus` (and their web forms,
   * which differ only in the message of a 500 that cannot occur): 404 for an
   * unknown id, otherwise `isActive` is flipped on that document, whoever
   * created it or manages it.
   */
  method ToggleStatus(db: Db, c: Collection, id: Id) returns (res: Response)
    requires db.Valid() && c != Admins
    modifies db
    ensures db.Valid()
    ensures id >= |old(db.Table(c))| ==>
              res == Reply(NOT_FOUND, if c == Managers then "Manager not found" else "Employee not found")
              && db.Table(c) == old(db.Table(c))
    ensures id < |old(db.Table(c))| ==>
              && res.status == OK
              && db.Table(c) == old(db.Table(c))[id := Toggled(old(db.Table(c))[id])]
              && IsActive(db.Table(c)[id]) == !IsActive(old(db.Table(c))[id])
    ensures forall d :: d != c ==> db.Table(d) == old(db.Table(d))
  {
    var kind := if c == Managers then "Manager" else "Employee";
    var t := db.Table(c);
    if id >= |t| {
      return Reply(NOT_FOUND, kind + " not found");
    }
    assert Stored(t[id], c);
    var doc := Toggle(db, c, id);
    assert db.Table(c)[id] == doc == Toggled(t[id]);
    var json := ToJson(id, doc);
    res := Response(OK, ToggleMessage(kind, IsActive(doc)), None, Some(json));
  }

  /** The `stats` of the admin dashboard. */
  datatype DashboardStats = DashboardStats(managers: Counts, employees: Counts)

  /** Active and inactive partition both collections. */
  function GetDashboardStats(managers: seq<Account>, employees: seq<Account>): (s: DashboardStats)
    ensures s.managers.total == |managers| && s.managers.active + s.managers.inactive == |managers|
    ensures s.employees.total == |employees| && s.employees.active + s.employees.inactive == |employees|
    ensures s.managers.active == CountActive(managers) && s.employees.active == CountActive(employees)
  {
    DashboardStats(Tally(managers), Tally(employees))
  }
}

=== FILE: admin_routes.dfy ===
/**
 * routes/admin.js: which admin endpoints run `adminAuth` before their handler,
 * and the forgot-password handler the router defines inline (the controller's
 * own `forgotPassword` is not routed).
 */
module AdminRoutes {
  import opened Wrappers
  import opened Crypto
  import opened Accounts
  import opened Store
  import opened Tokens
  import opened Passport
  import opened Auth
  import opened Handlers
  import opened AdminController

  // ---------------------------------------------------------------------------
  // The inline forgot-password handler
  // ---------------------------------------------------------------------------

  /** `Date.now() + 3600000`: one hour. */
  const ROUTE_RESET_WINDOW_MS: int := 3600000

  /**
   * What the inline handler assigns: the token itself, unhashed, and an
   * expiry one hour from now.  Both paths are declared on the admin schema,
   * so both are stored.
   */
  function IssueRawReset(a: Account, resetToken: string, nowMs: int): (r: Account)
    ensures r.resetPasswordToken == Some(RawToken(resetToken))
    ensures r.resetPasswordExpires == Some(nowMs + ROUTE_RESET_WINDOW_MS)
    ensures r.(resetPasswordToken := a.resetPasswordToken, resetPasswordExpires := a.resetPasswordExpires) == a
  {
    a.(resetPasswordToken := Some(RawToken(resetToken)), resetPasswordExpires := Some(nowMs + ROUTE_RESET_WINDOW_MS))
  }

  /**
   * The routed reset and the controllers' reset store different tokens for
   * the same request (the raw token against its SHA-256) and different
   * expiries (an hour against ten minutes); the rest of the document is the
   * same.
   */
  lemma RouteResetDiffersFromController(a: Account, resetToken: string, nowMs: int)
    ensures IssueRawReset(a, resetToken, nowMs).resetPasswordToken != IssueReset(a, resetToken, nowMs).resetPasswordToken
    ensures IssueRawReset(a, resetToken, nowMs).resetPasswordExpires != IssueReset(a, resetToken, nowMs).resetPasswordExpires
    ensures ClearReset(IssueRawReset(a, resetToken, nowMs)) == ClearReset(IssueReset(a, resetToken, nowMs))
  {
  }

  const ADMIN_EMAIL_NOT_FOUND: string := "Admin with this email not found"
  const ROUTE_RESET_SENT: string := "Password reset email sent successfully"

  /**
   * `POST /forgot-password`: `Admin.findOne({ email })` (404 and nothing
   * written when there is none), then the raw token and its expiry are
   * saved.  When sending the mail throws, the answer is 500 but the saved
   * token stays: there is no rollback.
   */
  method ForgotPasswordRoute(db: Db, email: string, resetToken: string, nowMs: int, sendThrows: bool)
    returns (res: Response)
    requires db.Valid()
    modifies db
    ensures db.Valid()
    ensures var t := old(db.admins);
            var hit := FindOne(t, ByEmail(email, false));
            && (hit.None? ==> res == Reply(NOT_FOUND, ADMIN_EMAIL_NOT_FOUND) && db.admins == t)
            && (hit.Some? ==>
                  && t[hit.value].email == NormEmail(email)
                  && db.admins == t[hit.value := IssueRawReset(t[hit.value], resetToken, nowMs)]
                  && res == if sendThrows then Reply(SERVER_ERROR, SERVER_ERROR_MESSAGE) else Reply(OK, ROUTE_RESET_SENT))
    ensures forall d :: d != Admins ==> db.Table(d) == old(db.Table(d))
  {
    var t := db.admins;
    var hit := FindOne(t, ByEmail(email, false));
    if hit.None? {
      return Reply(NOT_FOUND, ADMIN_EMAIL_NOT_FOUND);
    }
    var id := hit.value;
    assert Stored(t[id], Admins);
    var doc := IssueRawReset(t[id], resetToken, nowMs);
    ResaveSucceeds(t, Admins, id, doc, 0);
    var ok := db.Save(Admins, id, doc, 0);
    if sendThrows {
      return Reply(SERVER_ERROR, SERVER_ERROR_MESSAGE);
    }
    res := Reply(OK, ROUTE_RESET_SENT);
  }

  // ---------------------------------------------------------------------------
  // The router
  // ---------------------------------------------------------------------------

  /** The admin endpoints, with their path parameter where they have one. */
  datatype Route =
    | RegisterRoute | LoginRoute | ProfileRoute | ChangePasswordRoute | UpdateProfileRoute | ForgotRoute
    | AddManagerRoute | ListManagersRoute | ToggleManagerRoute(id: Id) | ListEmployeesRoute | ToggleEmployeeRoute(id: Id)

  /** Every endpoint except registration, login and forgot-password runs `adminAuth` first. */
  predicate Guarded(r: Route)
  {
    !(r.RegisterRoute? || r.LoginRoute? || r.ForgotRoute?)
  }

  /** The body fields and bearer token a request carries (`""` for a field not sent). */
  datatype Request = Request(token: Option<Jwt>, username: string, email: string, phone: string, password: string,
                             currentPassword: string, newPassword: string)

  /** What the handlers take from outside the request: the secret, the clock, a bcrypt salt, the random reset token, the mailer. */
  datatype Env = Env(secret: string, nowMs: int, salt: nat, resetToken: string, sendThrows: bool)

  /**
   * What an open endpoint answers, given the admins before the request: its
   * handler's decision.  Registration is 400 when the username or email is
   * taken and otherwise 201 exactly when the new admin is valid; login is 200
   * exactly when the credentials verify; forgot-password is 404 for an
   * unknown email and otherwise 200 unless the mail throws.
   */
  predicate OpenAnswer(admins: seq<Account>, route: Route, req: Request, env: Env, res: Response)
  {
    && (route.RegisterRoute? ==>
          var hit := FindOne(admins, ByUsernameOrEmail(req.username, req.email));
          && (hit.Some? ==> res.status == BAD_REQUEST)
          && (hit.None? ==>
                (res.status == CREATED <==> SchemaValid(NewAccount(Admins, req.username, req.email, req.phone, req.password, None, None)))))
    && (route.LoginRoute? ==>
          (res.status == OK <==> CheckCredentials(admins, Admins, req.username, req.password).Verified?))
    && (route.ForgotRoute? ==>
          var hit := FindOne(admins, ByEmail(req.email, false));
          && (hit.None? ==> res.status == NOT_FOUND)
          && (hit.Some? ==> (res.status == OK <==> !env.sendThrows)))
  }

  /**
   * What a guarded endpoint answers once `adminAuth` has bound the admin
   * `caller`, given the tables before the request: its handler's decision.
   * Profile and the listings are 200; change-password is 400 for a wrong
   * current password, 500 for a new one the validator refuses and 200
   * otherwise; update-profile is 400 for a username or email another admin
   * holds and otherwise 200 exactly when the edited admin is valid;
   * add-manager is 400 for a taken username or email and otherwise 201
   * exactly when the new manager, created by `caller`, is valid; a toggle is
   * 404 for an unknown id and 200 otherwise.
   */
  predicate GuardedAnswer(admins: seq<Account>, managers: seq<Account>, employees: seq<Account>, caller: Id,
                          route: Route, req: Request, res: Response)
  {
    && (route.ProfileRoute? || route.ListManagersRoute? || route.ListEmployeesRoute? ==> res.status == OK)
    && (route.ChangePasswordRoute? && caller < |admins| ==>
          var known := ComparePassword(admins[caller], req.currentPassword);
          && (!known ==> res == Reply(BAD_REQUEST, PASSWORD_INCORRECT))
          && (known && |req.newPassword| < PASSWORD_MIN_LENGTH ==> res == Reply(SERVER_ERROR, SERVER_ERROR_MESSAGE))
          && (known && |req.newPassword| >= PASSWORD_MIN_LENGTH ==> res == Reply(OK, PASSWORD_CHANGED)))
    && (route.UpdateProfileRoute? && caller < |admins| ==>
          var e := Edit(req.username, req.email, req.phone, None);
          && (UsernameHeld(admins, caller, e) ==> res == Reply(BAD_REQUEST, USERNAME_EXISTS))
          && (!UsernameHeld(admins, caller, e) && EmailHeld(admins, caller, e) ==> res == Reply(BAD_REQUEST, EMAIL_EXISTS))
          && (!UsernameHeld(admins, caller, e) && !EmailHeld(admins, caller, e) ==>
                (res.status == OK <==> SchemaValid(Amended(admins[caller], e)))))
    && (route.AddManagerRoute? ==>
          var hit := FindOne(managers, ByUsernameOrEmail(req.username, req.email));
          && (hit.Some? ==> res.status == BAD_REQUEST)
          && (hit.None? ==>
                (res.status == CREATED <==>
                   SchemaValid(NewAccount(Managers, req.username, req.email, req.phone, req.password, Some(caller), None)))))
    && (route.ToggleManagerRoute? ==> res.status == if route.id < |managers| then OK else NOT_FOUND)
    && (route.ToggleEmployeeRoute? ==> res.status == if route.id < |employees| then OK else NOT_FOUND)
  }

  /**
   * The router: a guarded endpoint whose token binds no admin is answered by
   * `adminAuth` (401 or 403) and nothing is written.  Once an admin is bound,
   * change-password and update-profile can only write that admin's own
   * document, and the read-only endpoints write nothing.
   */
  method Serve(db: Db, route: Route, req: Request, env: Env) returns (res: Response)
    requires db.Valid()
    modifies db
    ensures db.Valid()
    ensures !Guarded(route) ==> OpenAnswer(old(db.admins), route, req, env, res)
    ensures Guarded(route) && TokenUser(old(db.admins), Admins, req.token, env.secret, env.nowMs).Some? ==>
              && res.status != UNAUTHORIZED && res.status != FORBIDDEN
              && GuardedAnswer(old(db.admins), old(db.managers), old(db.employees),
                               TokenUser(old(db.admins), Admins, req.token, env.secret, env.nowMs).value, route, req, res)
    ensures route.ToggleManagerRoute? && Guarded(route) && TokenUser(old(db.admins), Admins, req.token, env.secret, env.nowMs).Some?
            && route.id < |old(db.managers)| ==>
              db.managers == old(db.managers)[route.id := Toggled(old(db.managers)[route.id])]
    ensures route.ToggleEmployeeRoute? && Guarded(route) && TokenUser(old(db.admins), Admins, req.token, env.secret, env.nowMs).Some?
            && route.id < |old(db.employees)| ==>
              db.employees == old(db.employees)[route.id := Toggled(old(db.employees)[route.id])]
    ensures Guarded(route) && TokenUser(old(db.admins), Admins, req.token, env.secret, env.nowMs).None? ==>
              && (res.status == UNAUTHORIZED || res.status == FORBIDDEN)
              && forall d :: db.Table(d) == old(db.Table(d))
    ensures (route.ProfileRoute? || route.ListManagersRoute? || route.ListEmployeesRoute? || route.LoginRoute?) ==>
              forall d :: db.Table(d) == old(db.Table(d))
    ensures (route.ChangePasswordRoute? || route.UpdateProfileRoute?) ==>
              && |db.admins| == |old(db.admins)|
              && (forall j :: 0 <= j < |db.admins| && Some(j) != TokenUser(old(db.admins), Admins, req.token, env.secret, env.nowMs) ==>
                    db.admins[j] == old(db.admins)[j])
              && forall d :: d != Admins ==> db.Table(d) == old(db.Table(d))
  {
    if !Guarded(route) {
      res := ServeOpen(db, route, req, env);
      return;
    }
    var g := RoleAuth(db, Admins, req.token, env.secret, env.nowMs);
    if g.Denied? {
      return Reply(g.status, g.message);
    }
    res := ServeAdmin(db, route, g.principal.id, req, env);
  }

  /**
   * The endpoints without `adminAuth`: each runs its handler whatever token
   * the request carries.
   */
  method ServeOpen(db: Db, route: Route, req: Request, env: Env) returns (res: Response)
    requires db.Valid() && !Guarded(route)
    modifies db
    ensures db.Valid()
    ensures OpenAnswer(old(db.admins), route, req, env, res)
    ensures route.LoginRoute? ==> forall d :: db.Table(d) == old(db.Table(d))
  {
    match route
    case RegisterRoute =>
      res := Register(db, req.username, req.email, req.phone, req.password, env.salt, env.secret, env.nowMs);
    case LoginRoute =>
      res := Login(db, Admins, req.username, req.password, env.secret, env.nowMs);
    case ForgotRoute =>
      res := ForgotPasswordRoute(db, req.email, env.resetToken, env.nowMs, env.sendThrows);
  }

  /** The guarded endpoints, once `adminAuth` has bound the admin `caller`. */
  method ServeAdmin(db: Db, route: Route, caller: Id, req: Request, env: Env) returns (res: Response)
    requires db.Valid() && Guarded(route) && caller < |db.admins|
    modifies db
    ensures db.Valid()
    ensures res.status != UNAUTHORIZED && res.status != FORBIDDEN
    ensures GuardedAnswer(old(db.admins), old(db.managers), old(db.employees), caller, route, req, res)
    ensures route.ToggleManagerRoute? && route.id < |old(db.managers)| ==>
              db.managers == old(db.managers)[route.id := Toggled(old(db.managers)[route.id])]
    ensures route.ToggleEmployeeRoute? && route.id < |old(db.employees)| ==>
              db.employees == old(db.employees)[route.id := Toggled(old(db.employees)[route.id])]
    ensures (route.ProfileRoute? || route.ListManagersRoute? || route.ListEmployeesRoute?) ==>
              forall d :: db.Table(d) == old(db.Table(d))
    ensures (route.ChangePasswordRoute? || route.UpdateProfileRoute?) ==>
              && |db.admins| == |old(db.admins)|
              && (forall j :: 0 <= j < |db.admins| && j != caller ==> db.admins[j] == old(db.admins)[j])
              && forall d :: d != Admins ==> db.Table(d) == old(db.Table(d))
  {
    match route
    case ProfileRoute =>
      var json := ToJson(caller, db.admins[caller]);
      res := Response(OK, "Admin profile retrieved successfully", None, Some(json));
    case ChangePasswordRoute =>
      res := ChangePassword(db, Admins, caller, req.currentPassword, req.newPassword, env.salt, SERVER_ERROR_MESSAGE);
    case UpdateProfileRoute =>
      res := Update(db, Admins, caller, Edit(req.username, req.email, req.phone, None), true,
                    "Profile updated successfully", SERVER_ERROR_MESSAGE);
    case AddManagerRoute =>
      res := CreateManager(db, caller, req.username, req.email, req.phone, req.password, env.salt);
    case ListManagersRoute =>
      res := Reply(OK, "Managers retrieved successfully");
    case ToggleManagerRoute(id) =>
      res := ToggleStatus(db, Managers, id);
    case ListEmployeesRoute =>
      res := Reply(OK, "Employees retrieved successfully");
    case ToggleEmployeeRoute(id) =>
      res := ToggleStatus(db, Employees, id);
  }
}

=== FILE: auth.dfy ===
/**
 * The request gates of middleware/auth.js.  A gate looks at what the request
 * presents (a bearer token, and for the web gates the session's user) and at
 * the tables, and either binds a user to the request or answers it with a
 * status and a message.  The `Authorization` header is given already stripped
 * of its `Bearer ` prefix: `None` stands for a missing or empty token.
 */
module Auth {
  import opened Wrappers
  import opened Accounts
  import opened Store
  import opened Tokens
  import opened Passport

  /** A gate's decision: the request goes on with a bound user, or is answered. */
  datatype Gate = Bound(principal: Principal) | Denied(status: nat, message: string)

  const UNAUTHORIZED: nat := 401
  const FORBIDDEN: nat := 403

  const NO_TOKEN: string := "No token, authorization denied"
  const TOKEN_NOT_VALID: string := "Token is not valid"
  const AUTHENTICATION_REQUIRED: string := "Authentication required"
  const ADMIN_OR_MANAGER_ONLY: string := "Access denied. Admin or Manager only."
  const MANAGER_INACTIVE: string := "Manager account is inactive"
  const USER_NOT_FOUND: string := "User not found"

  /** The 403 message of the single-role gates. */
  function RoleOnlyMessage(c: Collection): string
  {
    match c
    case Admins => "Access denied. Admin only."
    case Managers => "Access denied. Manager only."
    case Employees => "Access denied. Employee only."
  }

  /**
   * What a gate asks of the account an id names in collection `c`: it exists,
   * and for managers and employees it is active.  Admins have no such flag.
   */
  predicate Admits(t: seq<Account>, c: Collection, id: Id)
  {
    id < |t| && (c == Admins || IsActive(t[id]))
  }

  /**
   * The account of collection `c` a bearer token binds, if any: the token
   * verifies, carries `c`'s role, and names an account the gate admits.
   */
  function TokenUser(t: seq<Account>, c: Collection, token: Option<Jwt>, secret: string, nowMs: int): Option<Id>
  {
    if token.Some? && Verify(token.value, secret, nowMs).Valid?
       && Verify(token.value, secret, nowMs).claims.role == RoleName(c)
       && Admits(t, c, Verify(token.value, secret, nowMs).claims.id)
    then Some(Verify(token.value, secret, nowMs).claims.id)
    else None
  }

  /** What `verifyToken` leaves on the request: the token's claims, or an answer. */
  datatype ClaimsGate = ClaimsBound(claims: Claims) | ClaimsDenied(status: nat, message: string)

  /** `verifyToken`: accepts any validly signed, unexpired token, whatever its role, without a lookup. */
  method VerifyToken(token: Option<Jwt>, secret: string, nowMs: int) returns (g: ClaimsGate)
    ensures token.None? ==> g == ClaimsDenied(UNAUTHORIZED, NO_TOKEN)
    ensures token.Some? ==>
              g == match Verify(token.value, secret, nowMs)
                   case Invalid => ClaimsDenied(UNAUTHORIZED, TOKEN_NOT_VALID)
                   case Valid(claims) => ClaimsBound(claims)
  {
    if token.None? {
      return ClaimsDenied(UNAUTHORIZED, NO_TOKEN);
    }
    var decoded := Verify(token.value, secret, nowMs);
    if decoded.Invalid? {
      return ClaimsDenied(UNAUTHORIZED, TOKEN_NOT_VALID);
    }
    g := ClaimsBound(decoded.claims);
  }

  /**
   * `adminAuth`, `managerAuth` and `employeeAuth`: a missing token and a token
   * that does not verify are 401; a valid token for another role is 403; the
   * account the token names must then exist and, for managers and employees,
   * be active (401 otherwise).  A user is bound in that last case only.
   */
  method RoleAuth(db: Db, c: Collection, token: Option<Jwt>, secret: string, nowMs: int) returns (g: Gate)
    ensures token.None? ==> g == Denied(UNAUTHORIZED, NO_TOKEN)
    ensures token.Some? && Verify(token.value, secret, nowMs).Invalid? ==> g == Denied(UNAUTHORIZED, TOKEN_NOT_VALID)
    ensures token.Some? && Verify(token.value, secret, nowMs).Valid? ==>
              var claims := Verify(token.value, secret, nowMs).claims;
              && (claims.role != RoleName(c) ==> g == Denied(FORBIDDEN, RoleOnlyMessage(c)))
              && (claims.role == RoleName(c) && !Admits(db.Table(c), c, claims.id) ==>
                    g == Denied(UNAUTHORIZED, NotFoundMessage(c)))
              && (claims.role == RoleName(c) && Admits(db.Table(c), c, claims.id) ==>
                    g == Bound(Principal(c, claims.id, db.Table(c)[claims.id])))
    ensures g.Bound? ==> g.principal.collection == c && Admits(db.Table(c), c, g.principal.id)
    ensures g.Bound? <==> TokenUser(db.Table(c), c, token, secret, nowMs).Some?
    ensures g.Bound? ==> TokenUser(db.Table(c), c, token, secret, nowMs) == Some(g.principal.id)
    ensures g.Denied? ==> (g.status == FORBIDDEN <==>
              token.Some? && Verify(token.value, secret, nowMs).Valid? && Verify(token.value, secret, nowMs).claims.role != RoleName(c))
    ensures g.Denied? ==> g.status == UNAUTHORIZED || g.status == FORBIDDEN
  {
    if token.None? {
      return Denied(UNAUTHORIZED, NO_TOKEN);
    }
    var decoded := Verify(token.value, secret, nowMs);
    if decoded.Invalid? {
      return Denied(UNAUTHORIZED, TOKEN_NOT_VALID);
    }
    if decoded.claims.role != RoleName(c) {
      return Denied(FORBIDDEN, RoleOnlyMessage(c));
    }
    var t := db.Table(c);
    var id := decoded.claims.id;
    if !Admits(t, c, id) {
      return Denied(UNAUTHORIZED, NotFoundMessage(c));
    }
    g := Bound(Principal(c, id, t[id]));
  }

  /**
   * `adminOrManagerAuth`: roles other than admin and manager are 403; an admin
   * token needs an existing admin, a manager token an existing, active manager
   * (an inactive one is told so, a missing one is "User not found").
   */
  method AdminOrManagerAuth(db: Db, token: Option<Jwt>, secret: string, nowMs: int) returns (g: Gate)
    ensures token.None? ==> g == Denied(UNAUTHORIZED, NO_TOKEN)
    ensures token.Some? && Verify(token.value, secret, nowMs).Invalid? ==> g == Denied(UNAUTHORIZED, TOKEN_NOT_VALID)
    ensures token.Some? && Verify(token.value, secret, nowMs).Valid? ==>
              var claims := Verify(token.value, secret, nowMs).claims;
              && (claims.role != ADMIN_ROLE && claims.role != MANAGER_ROLE ==> g == Denied(FORBIDDEN, ADMIN_OR_MANAGER_ONLY))
              && (claims.role == ADMIN_ROLE ==>
                    g == if claims.id < |db.admins| then Bound(Principal(Admins, claims.id, db.admins[claims.id]))
                         else Denied(UNAUTHORIZED, USER_NOT_FOUND))
              && (claims.role == MANAGER_ROLE ==>
                    g == if claims.id >= |db.managers| then Denied(UNAUTHORIZED, USER_NOT_FOUND)
                         else if !IsActive(db.managers[claims.id]) then Denied(UNAUTHORIZED, MANAGER_INACTIVE)
                         else Bound(Principal(Managers, claims.id, db.managers[claims.id])))
    ensures g.Bound? ==> g.principal.collection != Employees && Admits(db.Table(g.principal.collection), g.principal.collection, g.principal.id)
  {
    if token.None? {
      return Denied(UNAUTHORIZED, NO_TOKEN);
    }
    var decoded := Verify(token.value, secret, nowMs);
    if decoded.Invalid? {
      return Denied(UNAUTHORIZED, TOKEN_NOT_VALID);
    }
    var claims := decoded.claims;
    if claims.role != ADMIN_ROLE && claims.role != MANAGER_ROLE {
      return Denied(FORBIDDEN, ADMIN_OR_MANAGER_ONLY);
    }
    var user: Option<Principal> := None;
    if claims.role == ADMIN_ROLE {
      if claims.id < |db.admins| {
        user := Some(Principal(Admins, claims.id, db.admins[claims.id]));
      }
    } else {
      if claims.id < |db.managers| {
        user := Some(Principal(Managers, claims.id, db.managers[claims.id]));
        if !IsActive(db.managers[claims.id]) {
          return Denied(UNAUTHORIZED, MANAGER_INACTIVE);
        }
      }
    }
    if user.None? {
      return Denied(UNAUTHORIZED, USER_NOT_FOUND);
    }
    g := Bound(user.value);
  }

  /**
   * `adminWebAuth`, `managerWebAuth` and `employeeWebAuth`: the session's user
   * is tried first; only when that does not bind a user is the bearer token
   * tried.  Either path binds only an account of the gate's role that exists
   * and, for managers and employees, is active.  Otherwise the answer is 401
   * "Authentication required".
   */
  method WebAuth(db: Db, c: Collection, session: Option<SessionUser>, token: Option<Jwt>, secret: string, nowMs: int)
    returns (g: Gate)
    ensures var t := db.Table(c);
            var bySession := session.Some? && session.value.role == RoleName(c) && Admits(t, c, session.value.id);
            var byToken := token.Some? && Verify(token.value, secret, nowMs).Valid?
                           && Verify(token.value, secret, nowMs).claims.role == RoleName(c)
                           && Admits(t, c, Verify(token.value, secret, nowMs).claims.id);
            && (bySession ==> g == Bound(Principal(c, session.value.id, t[session.value.id])))
            && (!bySession && byToken ==>
                  g == Bound(Principal(c, Verify(token.value, secret, nowMs).claims.id,
                                       t[Verify(token.value, secret, nowMs).claims.id])))
            && (!bySession && !byToken ==> g == Denied(UNAUTHORIZED, AUTHENTICATION_REQUIRED))
    ensures g.Bound? ==> g.principal.collection == c && Admits(db.Table(c), c, g.principal.id)
                         && g.principal.user == db.Table(c)[g.principal.id]
  {
    var t := db.Table(c);
    if session.Some? && session.value.role == RoleName(c) {
      var id := session.value.id;
      if Admits(t, c, id) {
        return Bound(Principal(c, id, t[id]));
      }
    }
    if token.Some? {
      var decoded := Verify(token.value, secret, nowMs);
      if decoded.Valid? && decoded.claims.role == RoleName(c) {
        var id := decoded.claims.id;
        if Admits(t, c, id) {
          return Bound(Principal(c, id, t[id]));
        }
      }
    }
    g := Denied(UNAUTHORIZED, AUTHENTICATION_REQUIRED);
  }

  /** No account of one collection carries the role of another, so a gate's role test tells the collections apart. */
  lemma RoleNamesDistinct(c: Collection, d: Collection)
    ensures RoleName(c) == RoleName(d) <==> c == d
  {
    if c != d {
      assert RoleName(c)[0] != RoleName(d)[0] || |RoleName(c)| != |RoleName(d)|;
    }
  }

  /**
   * A token issued at login to an account of collection `c` carries that
   * collection's role: until it expires it verifies to the account's claims,
   * and the single-role gate of any other collection answers it with 403.
   */
  lemma IssuedTokenRole(id: Id, a: Account, c: Collection, d: Collection, secret: string, issuedMs: int, nowMs: int)
    requires InCollection(a, c)
    requires EpochSeconds(nowMs) < EpochSeconds(issuedMs) + TOKEN_LIFETIME_SECONDS
    ensures Verify(GenerateToken(id, a, secret, issuedMs), secret, nowMs) == Valid(Claims(id, RoleName(c), a.username))
    ensures Verify(GenerateToken(id, a, secret, issuedMs), secret, nowMs).claims.role == RoleName(d) <==> c == d
  {
    RoleNamesDistinct(c, d);
  }
}

=== FILE: crypto.dfy ===
/**
 * The cryptographic primitives the system calls into (bcrypt, SHA-256).
 * They are foreign libraries, so they are modelled as IDEAL primitives:
 * injective constructors.  Two digests are equal exactly when they were made
 * from the same input (and, for bcrypt, the same salt); nothing else about
 * their internals is assumed.
 */
module Crypto {

  /** A bcrypt digest: the salt it embeds and the input it was computed from. */
  datatype Digest = Bcrypt(salt: nat, input: string)

  /** `bcrypt.hash(plain, salt)`; the salt comes from `bcrypt.genSalt(10)`, a random value. */
  function BcryptHash(salt: nat, plain: string): Digest
  {
    Bcrypt(salt, plain)
  }

  /** `bcrypt.compare(candidate, digest)`: re-hash the candidate with the digest's own salt. */
  predicate BcryptCompare(candidate: string, d: Digest)
  {
    BcryptHash(d.salt, candidate) == d
  }

  /** What a password-reset token field holds: the token itself or its SHA-256 hex digest. */
  datatype ResetToken = RawToken(token: string) | Sha256Hex(input: string)

  /** `crypto.createHash('sha256').update(token).digest('hex')` */
  function Sha256(token: string): ResetToken
  {
    Sha256Hex(token)
  }

  /** bcrypt accepts a candidate exactly when it is the password that was hashed, whatever the salt. */
  lemma CompareAcceptsOnlyThePassword(salt: nat, plain: string, candidate: string)
    ensures BcryptCompare(candidate, BcryptHash(salt, plain)) <==> candidate == plain
  {
  }
}

=== FILE: employee_controller.dfy ===
/**
 * controllers/employeeController.js: what is particular to the employee.  Its
 * login, change-password, update-profile and forgot-password are the shared
 * handlers of the Handlers module on the employee collection; the web form of
 * update-profile is here, because it skips the uniqueness checks.
 */
module EmployeeController {
  import opened Wrappers
  import opened Accounts
  import opened Store
  import opened Passport
  import opened Handlers

  const UPDATE_FAILED: string := "Error updating profile"

  /**
   * `updateProfileWeb`: the employee is `findById(session.user.id)` (500
   * without a session user, 404 when the session's user is no employee);
   * username, email and phone are assigned when supplied and saved with no
   * uniqueness checks, so a username or email another employee holds is
   * refused by the unique index, as a 500, not a 400.
   */
  method UpdateProfileWeb(db: Db, session: Option<SessionUser>, username: string, email: string, phone: string)
    returns (res: Response)
    requires db.Valid()
    modifies db
    ensures db.Valid()
    ensures session.None? ==> res == Reply(SERVER_ERROR, UPDATE_FAILED) && db.employees == old(db.employees)
    ensures session.Some? && FindSessionUser(old(db.employees), Employees, session.value).None? ==>
              res == Reply(NOT_FOUND, "Employee not found") && db.employees == old(db.employees)
    ensures session.Some? && FindSessionUser(old(db.employees), Employees, session.value).Some? ==>
              var id := session.value.id;
              var doc := Amended(old(db.employees)[id], Edit(username, email, phone, None));
              && (res.status == OK <==> SchemaValid(doc) && !Clash(old(db.employees), id, doc))
              && (res.status == OK ==> db.employees == old(db.employees)[id := doc])
              && (res.status != OK ==> res == Reply(SERVER_ERROR, UPDATE_FAILED) && db.employees == old(db.employees))
    ensures forall d :: d != Employees ==> db.Table(d) == old(db.Table(d))
  {
    if session.None? {
      return Reply(SERVER_ERROR, UPDATE_FAILED);
    }
    var found := FindSessionUser(db.employees, Employees, session.value);
    if found.None? {
      return Reply(NOT_FOUND, "Employee not found");
    }
    var id := found.value;
    res := Update(db, Employees, id, Edit(username, email, phone, None), false,
                  "Profile updated successfully", UPDATE_FAILED);
  }

  /**
   * Without the checks, taking another employee's username is not a 400
   * "Username already exists" but a failed save: the store refuses the
   * duplicate.
   */
  lemma UncheckedDuplicateRefusedByIndex(t: seq<Account>, id: Id, other: Id, username: string)
    requires TableValid(t, Employees) && id < |t| && other < |t| && other != id
    requires username != [] && Trim(username) == t[other].username
    ensures Clash(t, id, Amended(t[id], Edit(username, [], [], None)))
  {
  }
}

=== FILE: handlers.dfy ===
/**
 * The request handlers the three controllers share, as transitions of the
 * store: each looks documents up, checks, assigns fields of one document and
 * saves it.  The controllers differ only in the collection they act on, the
 * way they find the document (the bound user, an id, an id scoped to the
 * calling manager) and their messages; those parts are in the controller
 * modules.
 */
module Handlers {
  import opened Wrappers
  import opened Crypto
  import opened Accounts
  import opened Store
  import opened Tokens
  import opened Passport
  import opened Auth

  /** An HTTP answer: status, message, and the token and public user some answers carry. */
  datatype Response = Response(status: nat, message: string, token: Option<Jwt>, user: Option<map<string, Value>>)

  function Reply(status: nat, message: string): Response
  {
    Response(status, message, None, None)
  }

  const OK: nat := 200
  const CREATED: nat := 201
  const BAD_REQUEST: nat := 400
  const NOT_FOUND: nat := 404
  const SERVER_ERROR: nat := 500

  const SERVER_ERROR_MESSAGE: string := "Server error"

  // ---------------------------------------------------------------------------
  // Create: uniqueness lookup, `new Model(...)`, save
  // ---------------------------------------------------------------------------

  datatype CreateOutcome = AlreadyExists | NotSaved | Created(id: Id, doc: Account)

  /**
   * When no document has the username or the email (as the setters normalise
   * them), the new document clashes with none.
   */
  lemma LookupExcludesClash(t: seq<Account>, username: string, email: string, doc: Account)
    requires FindOne(t, ByUsernameOrEmail(username, email)).None?
    requires doc.username == Trim(username) && doc.email == NormEmail(email)
    ensures !Clash(t, |t|, doc)
  {
    if Clash(t, |t|, doc) {
      var j :| 0 <= j < |t| && j != |t| && (t[j].username == doc.username || t[j].email == doc.email);
      assert Matches(ByUsernameOrEmail(username, email), j, t[j]);
    }
  }

  /**
   * `findOne({ $or: [{ username }, { email }] })`, then `new Model({...})` and
   * `save()`.  An existing username or email stops it before anything is
   * written; otherwise the only way the save fails is a validator, never a
   * duplicate key, and the new document is appended, hashed.
   */
  method Create(db: Db, c: Collection, username: string, email: string, phone: string, password: string,
                createdBy: Option<Id>, managerId: Option<Id>, salt: nat) returns (r: CreateOutcome)
    requires db.Valid()
    modifies db
    ensures db.Valid()
    ensures r.AlreadyExists? <==> FindOne(old(db.Table(c)), ByUsernameOrEmail(username, email)).Some?
    ensures r.NotSaved? <==> !r.AlreadyExists? && !SchemaValid(NewAccount(c, username, email, phone, password, createdBy, managerId))
    ensures r.Created? ==> && r.id == |old(db.Table(c))|
                           && r.doc == PreSave(NewAccount(c, username, email, phone, password, createdBy, managerId), salt)
                           && db.Table(c) == old(db.Table(c)) + [r.doc]
    ensures !r.Created? ==> db.Table(c) == old(db.Table(c))
    ensures forall d :: d != c ==> db.Table(d) == old(db.Table(d))
  {
    var t := db.Table(c);
    if FindOne(t, ByUsernameOrEmail(username, email)).Some? {
      return AlreadyExists;
    }
    var doc := NewAccount(c, username, email, phone, password, createdBy, managerId);
    LookupExcludesClash(t, username, email, doc);
    var ok := db.Save(c, |t|, doc, salt);
    if !ok {
      return NotSaved;
    }
    r := Created(|t|, PreSave(doc, salt));
  }

  // ---------------------------------------------------------------------------
  // Login
  // ---------------------------------------------------------------------------

  /** The controllers' 401 when the lookup finds nothing; the admin one does not filter on activity. */
  function LoginNotFoundMessage(c: Collection): string
  {
    if c == Admins then INVALID_CREDENTIALS else "Invalid credentials or account inactive"
  }

  /**
   * The controllers' `login`: the credential check of the strategies, then a
   * token for the account and its public form.  Nothing is written.
   */
  method Login(db: Db, c: Collection, username: string, password: string, secret: string, nowMs: int)
    returns (res: Response)
    ensures CheckCredentials(db.Table(c), c, username, password).UnknownIdentity? ==>
              res == Reply(UNAUTHORIZED, LoginNotFoundMessage(c))
    ensures CheckCredentials(db.Table(c), c, username, password).WrongPassword? ==>
              res == Reply(UNAUTHORIZED, INVALID_CREDENTIALS)
    ensures CheckCredentials(db.Table(c), c, username, password).Verified? ==>
              var id := CheckCredentials(db.Table(c), c, username, password).id;
              && res.status == OK && res.message == "Login successful"
              && res.token == Some(GenerateToken(id, db.Table(c)[id], secret, nowMs))
              && res.user.Some? && res.user.value.Keys == ToObject(id, db.Table(c)[id]).Keys - SECRET_PATHS
              && (forall k :: k in res.user.value ==> res.user.value[k] == ToObject(id, db.Table(c)[id])[k])
    ensures res.status == OK <==> CheckCredentials(db.Table(c), c, username, password).Verified?
  {
    var t := db.Table(c);
    match CheckCredentials(t, c, username, password)
    case UnknownIdentity =>
      res := Reply(UNAUTHORIZED, LoginNotFoundMessage(c));
    case WrongPassword(_) =>
      res := Reply(UNAUTHORIZED, INVALID_CREDENTIALS);
    case Verified(id) =>
      var token := GenerateToken(id, t[id], secret, nowMs);
      var json := ToJson(id, t[id]);
      res := Response(OK, "Login successful", Some(token), Some(json));
  }

  // ---------------------------------------------------------------------------
  // Change password
  // ---------------------------------------------------------------------------

  const PASSWORD_INCORRECT: string := "Current password is incorrect"
  const PASSWORD_CHANGED: string := "Password changed successfully"

  /** The document with a new plaintext password assigned, as the hook will see it. */
  function WithPassword(a: Account, newPassword: string): (r: Account)
    ensures r.password == Plain(newPassword)
    ensures r.(password := a.password) == a
  {
    a.(password := Plain(newPassword))
  }

  /**
   * `comparePassword(currentPassword)`, then `password = newPassword` and
   * `save()`.  A wrong current password is 400 and changes nothing; a new
   * password the validator refuses fails the save (500, `failure`); otherwise
   * the document is saved with the new password hashed, after which exactly
   * the new password compares equal.
   */
  method ChangePassword(db: Db, c: Collection, id: Id, currentPassword: string, newPassword: string, salt: nat,
                        failure: string) returns (res: Response)
    requires db.Valid() && id < |db.Table(c)|
    modifies db
    ensures db.Valid()
    ensures !ComparePassword(old(db.Table(c))[id], currentPassword) ==>
              res == Reply(BAD_REQUEST, PASSWORD_INCORRECT) && db.Table(c) == old(db.Table(c))
    ensures ComparePassword(old(db.Table(c))[id], currentPassword) && |newPassword| < PASSWORD_MIN_LENGTH ==>
              res == Reply(SERVER_ERROR, failure) && db.Table(c) == old(db.Table(c))
    ensures ComparePassword(old(db.Table(c))[id], currentPassword) && |newPassword| >= PASSWORD_MIN_LENGTH ==>
              && res == Reply(OK, PASSWORD_CHANGED)
              && db.Table(c) == old(db.Table(c))[id := PreSave(WithPassword(old(db.Table(c))[id], newPassword), salt)]
              && forall q :: ComparePassword(db.Table(c)[id], q) <==> q == newPassword
    ensures forall d :: d != c ==> db.Table(d) == old(db.Table(d))
  {
    var t := db.Table(c);
    if !ComparePassword(t[id], currentPassword) {
      return Reply(BAD_REQUEST, PASSWORD_INCORRECT);
    }
    var doc := WithPassword(t[id], newPassword);
    assert Stored(t[id], c);
    if |newPassword| >= PASSWORD_MIN_LENGTH {
      ResaveSucceeds(t, c, id, doc, salt);
    }
    var ok := db.Save(c, id, doc, salt);
    if !ok {
      return Reply(SERVER_ERROR, failure);
    }
    res := Reply(OK, PASSWORD_CHANGED);
  }

  // ---------------------------------------------------------------------------
  // Update: uniqueness against the other documents, assign supplied fields, save
  // ---------------------------------------------------------------------------

  /**
   * The fields of an update request.  An empty string is a field that is not
   * supplied (JavaScript treats it as false); `managerId` is only ever sent
   * to the admin's employee update.
   */
  datatype Edit = Edit(username: string, email: string, phone: string, managerId: Option<Id>)

  /**
   * `if (username) doc.username = username; ...`: each supplied field is
   * assigned through its setter; nothing else changes.
   */
  function Amended(a: Account, e: Edit): (r: Account)
    ensures r.username == if e.username != [] then Trim(e.username) else a.username
    ensures r.email == if e.email != [] then NormEmail(e.email) else a.email
    ensures r.phone == if e.phone != [] then Trim(e.phone) else a.phone
    ensures r.tier == if e.managerId.Some? && a.tier.EmployeeTier? then a.tier.(managerId := e.managerId) else a.tier
    ensures r.(username := a.username, email := a.email, phone := a.phone, tier := a.tier) == a
  {
    var a1 := if e.username != [] then a.(username := Trim(e.username)) else a;
    var a2 := if e.email != [] then a1.(email := NormEmail(e.email)) else a1;
    var a3 := if e.phone != [] then a2.(phone := Trim(e.phone)) else a2;
    if e.managerId.Some? && a.tier.EmployeeTier? then a3.(tier := a3.tier.(managerId := e.managerId)) else a3
  }

  /** An update that supplies nothing leaves the document as it is. */
  lemma EmptyEditIsIdentity(a: Account)
    ensures Amended(a, Edit([], [], [], None)) == a
  {
  }

  /** Amending keeps a document in its stored, normalised form, and sending the same update twice is sending it once. */
  lemma AmendIdempotent(a: Account, e: Edit)
    requires Normalized(a)
    ensures Normalized(Amended(a, e))
    ensures Amended(Amended(a, e), e) == Amended(a, e)
  {
    var r := Amended(a, e);
    NormEmailShape(e.email);
    TrimIdempotent(e.username);
    TrimIdempotent(e.phone);
    NormEmailIdempotent(e.email);
  }

  /** The outcome of the checks before an update assigns anything. */
  datatype Precheck = UsernameTaken | EmailTaken | ManagerRejected | Clear

  /** A supplied username that differs from the stored one and another document already holds. */
  predicate UsernameHeld(t: seq<Account>, id: Id, e: Edit)
    requires id < |t|
  {
    e.username != [] && e.username != t[id].username && exists j :: 0 <= j < |t| && j != id && t[j].username == Trim(e.username)
  }

  /** A supplied email that differs from the stored one and another document already holds. */
  predicate EmailHeld(t: seq<Account>, id: Id, e: Edit)
    requires id < |t|
  {
    e.email != [] && e.email != t[id].email && exists j :: 0 <= j < |t| && j != id && t[j].email == NormEmail(e.email)
  }

  /** A supplied `managerId` that differs from the employee's and names no existing, active manager. */
  predicate ManagerRefused(t: seq<Account>, managers: seq<Account>, id: Id, e: Edit)
    requires id < |t|
  {
    && e.managerId.Some? && t[id].tier.EmployeeTier? && e.managerId != t[id].tier.managerId
    && (e.managerId.value >= |managers| || !IsActive(managers[e.managerId.value]))
  }

  /**
   * The controllers' checks, in their order: a supplied username or email
   * that differs from the stored one must not be held by another document of
   * the collection; a supplied `managerId` that differs from the stored one
   * must name an existing, active manager.  The first check that fails
   * decides the answer.
   */
  function CheckEdit(t: seq<Account>, managers: seq<Account>, id: Id, e: Edit): (r: Precheck)
    requires id < |t|
    ensures r == UsernameTaken <==> UsernameHeld(t, id, e)
    ensures r == EmailTaken <==> !UsernameHeld(t, id, e) && EmailHeld(t, id, e)
    ensures r == ManagerRejected <==> !UsernameHeld(t, id, e) && !EmailHeld(t, id, e) && ManagerRefused(t, managers, id, e)
    ensures r == Clear <==> !UsernameHeld(t, id, e) && !EmailHeld(t, id, e) && !ManagerRefused(t, managers, id, e)
  {
    var byName := FindOne(t, ByUsernameExcept(e.username, id));
    var byEmail := FindOne(t, ByEmailExcept(e.email, id));
    if e.username != [] && e.username != t[id].username && byName.Some? then
      UsernameTaken
    else if e.email != [] && e.email != t[id].email && byEmail.Some? then
      EmailTaken
    else if ManagerRefused(t, managers, id, e) then
      ManagerRejected
    else
      Clear
  }

  /**
   * The uniqueness checks are enough: an update that passes them never hits a
   * unique index when it is saved.  A field that is not re-checked because it
   * equals the stored value is stored normalised, so the setter leaves it as
   * it is and the index already holds for it.
   */
  lemma CheckedEditKeepsIndexes(t: seq<Account>, c: Collection, managers: seq<Account>, id: Id, e: Edit)
    requires TableValid(t, c) && id < |t|
    requires CheckEdit(t, managers, id, e) == Clear
    ensures !Clash(t, id, Amended(t[id], e))
  {
    assert Stored(t[id], c);
    NormalizedIsFixpoint(t[id]);
  }

  const USERNAME_EXISTS: string := "Username already exists"
  const EMAIL_EXISTS: string := "Email already exists"
  const INVALID_MANAGER: string := "Invalid or inactive manager"

  /**
   * The update-profile handlers: the checks (400 with their message), then the
   * supplied fields assigned and `save()`; a validator or a unique index that
   * refuses the save gives 500 with `failure`.  Only the document `id` can
   * change, and only in the supplied fields; when the checks ran
   * (`checked`), the save can no longer fail on a unique index.
   */
  method Update(db: Db, c: Collection, id: Id, e: Edit, checked: bool, success: string, failure: string)
    returns (res: Response)
    requires db.Valid() && id < |db.Table(c)|
    requires e.managerId.Some? ==> c == Employees
    modifies db
    ensures db.Valid()
    ensures var t := old(db.Table(c));
            var pre := if checked then CheckEdit(t, old(db.managers), id, e) else Clear;
            && (pre == UsernameTaken ==> res == Reply(BAD_REQUEST, USERNAME_EXISTS))
            && (pre == EmailTaken ==> res == Reply(BAD_REQUEST, EMAIL_EXISTS))
            && (pre == ManagerRejected ==> res == Reply(BAD_REQUEST, INVALID_MANAGER))
            && (pre == Clear ==>
                  (res.status == OK <==> SchemaValid(Amended(t[id], e)) && !Clash(t, id, Amended(t[id], e))))
            && (checked && pre == Clear ==> (res.status == OK <==> SchemaValid(Amended(t[id], e))))
            && (res.status == OK ==> res.message == success && db.Table(c) == t[id := Amended(t[id], e)])
            && (res.status != OK ==> db.Table(c) == t)
            && (pre == Clear && res.status != OK ==> res == Reply(SERVER_ERROR, failure))
    ensures forall d :: d != c ==> db.Table(d) == old(db.Table(d))
  {
    var t := db.Table(c);
    assert Stored(t[id], c);
    var pre := if checked then CheckEdit(t, db.managers, id, e) else Clear;
    if pre == UsernameTaken {
      return Reply(BAD_REQUEST, USERNAME_EXISTS);
    } else if pre == EmailTaken {
      return Reply(BAD_REQUEST, EMAIL_EXISTS);
    } else if pre == ManagerRejected {
      return Reply(BAD_REQUEST, INVALID_MANAGER);
    }
    if checked {
      CheckedEditKeepsIndexes(t, c, db.managers, id, e);
    }
    var doc := Amended(t[id], e);
    AmendIdempotent(t[id], e);
    var ok := db.Save(c, id, doc, 0);
    if !ok {
      return Reply(SERVER_ERROR, failure);
    }
    var json := ToJson(id, doc);
    res := Response(OK, success, None, Some(json));
  }

  // ---------------------------------------------------------------------------
  // Toggle `isActive`
  // ---------------------------------------------------------------------------

  /**
   * `doc.isActive = !doc.isActive`.  An admin document has no such path, so
   * the assignment would be dropped; the handlers only toggle managers and
   * employees.
   */
  function Toggled(a: Account): (r: Account)
    ensures !a.tier.AdminTier? ==> IsActive(r) == !IsActive(a)
    ensures r.tier.AdminTier? == a.tier.AdminTier?
    ensures r.(tier := a.tier) == a
    ensures !a.tier.AdminTier? ==> r.tier.createdBy == a.tier.createdBy
    ensures a.tier.EmployeeTier? ==> r.tier.EmployeeTier? && r.tier.managerId == a.tier.managerId
  {
    if a.tier.AdminTier? then a else a.(tier := a.tier.(isActive := !a.tier.isActive))
  }

  /** Toggling twice gives back the document. */
  lemma {:induction false} ToggleInvolution(a: Account)
    ensures Toggled(Toggled(a)) == a
  {
    if !a.tier.AdminTier? {
      var b := Toggled(a);
      assert b.tier.isActive == !a.tier.isActive;
      assert Toggled(b).tier == a.tier;
    }
  }

  /** The toggle handlers' message: `<Kind> activated successfully` or `<Kind> deactivated successfully`. */
  function ToggleMessage(kind: string, active: bool): string
  {
    kind + (if active then " activated successfully" else " deactivated successfully")
  }

  /**
   * Flip `isActive` of document `id` and save.  The save cannot fail, since
   * nothing a validator or an index looks at has changed.
   */
  method Toggle(db: Db, c: Collection, id: Id) returns (doc: Account)
    requires db.Valid() && c != Admins && id < |db.Table(c)|
    modifies db
    ensures db.Valid()
    ensures doc == Toggled(old(db.Table(c))[id])
    ensures db.Table(c) == old(db.Table(c))[id := doc]
    ensures forall d :: d != c ==> db.Table(d) == old(db.Table(d))
  {
    var t := db.Table(c);
    assert Stored(t[id], c);
    doc := Toggled(t[id]);
    ResaveSucceeds(t, c, id, doc, 0);
    var ok := db.Save(c, id, doc, 0);
  }

  // ---------------------------------------------------------------------------
  // Forgot password (the controllers' version)
  // ---------------------------------------------------------------------------

  /** `Date.now() + 10 * 60 * 1000` */
  const RESET_WINDOW_MS: int := 10 * 60 * 1000

  /**
   * The reset request as the controllers intend it: the SHA-256 of the token
   * is stored with an expiry ten minutes from now.
   */
  function IssueReset(a: Account, resetToken: string, nowMs: int): (r: Account)
    ensures r.resetPasswordToken == Some(Sha256(resetToken))
    ensures r.resetPasswordExpires == Some(nowMs + RESET_WINDOW_MS)
    ensures r.(resetPasswordToken := a.resetPasswordToken, resetPasswordExpires := a.resetPasswordExpires) == a
  {
    a.(resetPasswordToken := Some(Sha256(resetToken)), resetPasswordExpires := Some(nowMs + RESET_WINDOW_MS))
  }

  /** The rollback: both reset fields set to `undefined`. */
  function ClearReset(a: Account): (r: Account)
    ensures r.resetPasswordToken.None? && r.resetPasswordExpires.None?
    ensures r.(resetPasswordToken := a.resetPasswordToken, resetPasswordExpires := a.resetPasswordExpires) == a
  {
    a.(resetPasswordToken := None, resetPasswordExpires := None)
  }

  /**
   * Rolling back an issued reset leaves no token and no expiry, and the
   * document otherwise as it was before the request; the raw token is never
   * what is stored.
   */
  lemma RollbackUndoesIssue(a: Account, resetToken: string, nowMs: int)
    ensures ClearReset(IssueReset(a, resetToken, nowMs)) == ClearReset(a)
    ensures IssueReset(a, resetToken, nowMs).resetPasswordToken != Some(RawToken(resetToken))
  {
  }

  /**
   * The fields the controllers actually write: they assign `resetPasswordExpire`,
   * a path no schema declares, so strict mode drops it and only the token is
   * stored.
   */
  function IssueResetAsWritten(a: Account, resetToken: string, nowMs: int): (r: Account)
    ensures r.resetPasswordToken == Some(Sha256(resetToken))
    ensures r.(resetPasswordToken := a.resetPasswordToken) == a
  {
    a.(resetPasswordToken := Some(Sha256(resetToken)))
  }

  /**
   * As written, a reset issued to an account that never had one stores a
   * token with no expiry at all, whatever the clock says, so it never
   * expires; the intended version always has one ten minutes out.
   */
  lemma AsWrittenResetNeverExpires(a: Account, resetToken: string, nowMs: int)
    requires a.resetPasswordExpires.None?
    ensures IssueResetAsWritten(a, resetToken, nowMs).resetPasswordToken.Some?
    ensures IssueResetAsWritten(a, resetToken, nowMs).resetPasswordExpires.None?
    ensures IssueReset(a, resetToken, nowMs).resetPasswordExpires == Some(nowMs + RESET_WINDOW_MS)
    ensures IssueResetAsWritten(a, resetToken, nowMs) != IssueReset(a, resetToken, nowMs)
  {
  }

  /** The 404 of each controller's `forgotPassword`. */
  function ResetNotFoundMessage(c: Collection): string
  {
    match c
    case Admins => "Admin with this email does not exist"
    case Managers => "Manager with this email does not exist or is inactive"
    case Employees => "Employee with this email does not exist or is inactive"
  }

  const RESET_SENT: string := "Password reset email sent"
  const RESET_NOT_SENT: string := "Email could not be sent"

  /**
   * The rollback as written: `resetPasswordToken` is set to `undefined`; the
   * `resetPasswordExpire = undefined` beside it goes to the undeclared path
   * and is dropped, so a stored expiry is left as it was.
   */
  function ClearResetAsWritten(a: Account): (r: Account)
    ensures r.resetPasswordToken.None? && r.resetPasswordExpires == a.resetPasswordExpires
    ensures r.(resetPasswordToken := a.resetPasswordToken) == a
  {
    a.(resetPasswordToken := None)
  }

  /**
   * The controllers' `forgotPassword`, as written: find the account by email
   * (only an active one for managers and employees; 404 and no change
   * otherwise), store the hashed token (the expiry is dropped) and save; when
   * sending the mail throws (`sendThrows`), clear the token, save again and
   * answer 500.
   */
  method ForgotPassword(db: Db, c: Collection, email: string, resetToken: string, nowMs: int, sendThrows: bool)
    returns (res: Response)
    requires db.Valid()
    modifies db
    ensures db.Valid()
    ensures var t := old(db.Table(c));
            var hit := FindOne(t, ByEmail(email, c != Admins));
            && (hit.None? ==> res == Reply(NOT_FOUND, ResetNotFoundMessage(c)) && db.Table(c) == t)
            && (hit.Some? && !sendThrows ==>
                  && res == Reply(OK, RESET_SENT)
                  && db.Table(c) == t[hit.value := IssueResetAsWritten(t[hit.value], resetToken, nowMs)]
                  && db.Table(c)[hit.value].resetPasswordExpires == t[hit.value].resetPasswordExpires)
            && (hit.Some? && sendThrows ==>
                  res == Reply(SERVER_ERROR, RESET_NOT_SENT) && db.Table(c) == t[hit.value := ClearResetAsWritten(t[hit.value])])
    ensures forall d :: d != c ==> db.Table(d) == old(db.Table(d))
  {
    var t := db.Table(c);
    var hit := FindOne(t, ByEmail(email, c != Admins));
    if hit.None? {
      return Reply(NOT_FOUND, ResetNotFoundMessage(c));
    }
    var id := hit.value;
    assert Stored(t[id], c);
    var doc := IssueResetAsWritten(t[id], resetToken, nowMs);
    ResaveSucceeds(t, c, id, doc, 0);
    var ok := db.Save(c, id, doc, 0);
    if !sendThrows {
      return Reply(OK, RESET_SENT);
    }
    var t1 := db.Table(c);
    assert t1[id] == doc;
    assert Stored(t1[id], c);
    var rolledBack := ClearResetAsWritten(doc);
    ResaveSucceeds(t1, c, id, rolledBack, 0);
    ok := db.Save(c, id, rolledBack, 0);
    assert rolledBack == ClearResetAsWritten(t[id]);
    assert t1[id := rolledBack] == t[id := ClearResetAsWritten(t[id])];
    res := Reply(SERVER_ERROR, RESET_NOT_SENT);
  }

  /**
   * The controllers' `forgotPassword` as intended: the same lookup and
   * answers, but the hashed token is stored with its expiry ten minutes out,
   * and the rollback clears both fields.
   */
  method ForgotPasswordCorrected(db: Db, c: Collection, email: string, resetToken: string, nowMs: int, sendThrows: bool)
    returns (res: Response)
    requires db.Valid()
    modifies db
    ensures db.Valid()
    ensures var t := old(db.Table(c));
            var hit := FindOne(t, ByEmail(email, c != Admins));
            && (hit.None? ==> res == Reply(NOT_FOUND, ResetNotFoundMessage(c)) && db.Table(c) == t)
            && (hit.Some? && !sendThrows ==>
                  && res == Reply(OK, RESET_SENT)
                  && db.Table(c) == t[hit.value := IssueReset(t[hit.value], resetToken, nowMs)]
                  && db.Table(c)[hit.value].resetPasswordExpires == Some(nowMs + RESET_WINDOW_MS))
            && (hit.Some? && sendThrows ==>
                  res == Reply(SERVER_ERROR, RESET_NOT_SENT) && db.Table(c) == t[hit.value := ClearReset(t[hit.value])])
    ensures forall d :: d != c ==> db.Table(d) == old(db.Table(d))
  {
    var t := db.Table(c);
    var hit := FindOne(t, ByEmail(email, c != Admins));
    if hit.None? {
      return Reply(NOT_FOUND, ResetNotFoundMessage(c));
    }
    var id := hit.value;
    assert Stored(t[id], c);
    var doc := IssueReset(t[id], resetToken, nowMs);
    ResaveSucceeds(t, c, id, doc, 0);
    var ok := db.Save(c, id, doc, 0);
    if !sendThrows {
      return Reply(OK, RESET_SENT);
    }
    var t1 := db.Table(c);
    assert t1[id] == doc;
    assert Stored(t1[id], c);
    var rolledBack := ClearReset(doc);
    ResaveSucceeds(t1, c, id, rolledBack, 0);
    ok := db.Save(c, id, rolledBack, 0);
    RollbackUndoesIssue(t[id], resetToken, nowMs);
    assert t1[id := rolledBack] == t[id := ClearReset(t[id])];
    res := Reply(SERVER_ERROR, RESET_NOT_SENT);
  }

  // ---------------------------------------------------------------------------
  // Dashboard counts
  // ---------------------------------------------------------------------------

  datatype Counts = Counts(total: nat, active: nat, inactive: nat)

  /** `{ total: xs.length, active: xs.filter(x => x.isActive).length, inactive: xs.filter(x => !x.isActive).length }` */
  function Tally(t: seq<Account>): (s: Counts)
    ensures s.total == |t| && s.active + s.inactive == s.total
    ensures s.active == CountActive(t)
  {
    ActivePlusInactive(t);
    Counts(|t|, CountActive(t), CountInactive(t))
  }
}

=== FILE: manager_controller.dfy ===
/**
 * controllers/managerController.js: what is particular to the manager.  Its
 * login, change-password, update-profile and forgot-password are the shared
 * handlers of the Handlers module on the manager collection.  Every employee
 * operation here is scoped to the calling manager: an employee is found by
 * `{ _id: id, managerId: caller }`, so another manager's employee is "not
 * found".
 */
module ManagerController {
  import opened Wrappers
  import opened Accounts
  import opened Store
  import opened Passport
  import opened Handlers

  const EMPLOYEE_EXISTS: string := "Employee with this username or email already exists"
  const NOT_UNDER_MANAGEMENT: string := "Employee not found or not under your management"
  const EMPLOYEE_ADDED: string := "Employee added successfully"
  const FIELDS_REQUIRED: string := "All fields are required"

  /**
   * The `managerId` the web form of `addEmployee` takes from the session:
   * null without a session user.  A session user of another role has an id
   * that names no manager; a model id is a position in one collection and
   * cannot hold it, so such a session gives no manager here.
   */
  function SessionManager(session: Option<SessionUser>): (r: Option<Id>)
    ensures r.Some? <==> session.Some? && session.value.role == MANAGER_ROLE
    ensures r.Some? ==> r.value == session.value.id
  {
    if session.Some? && session.value.role == MANAGER_ROLE then Some(session.value.id) else None
  }

  /**
   * `addEmployee` and `createEmployeeWeb`: 400 when an employee already has the
   * username or the email; otherwise a new, active employee whose `managerId`
   * and `createdBy` are both `manager`, or `failure` with 500 when a validator
   * refuses it.  The web form passes `SessionManager(session)`.  Without a
   * manager the required `managerId` refuses the document: no employee
   * without a manager.
   */
  method AddEmployee(db: Db, manager: Option<Id>, username: string, email: string, phone: string, password: string,
                     salt: nat, failure: string) returns (res: Response)
    requires db.Valid()
    modifies db
    ensures db.Valid()
    ensures FindOne(old(db.employees), ByUsernameOrEmail(username, email)).Some? ==>
              res == Reply(BAD_REQUEST, EMPLOYEE_EXISTS)
    ensures manager.None? ==> res.status != CREATED
    ensures FindOne(old(db.employees), ByUsernameOrEmail(username, email)).None? ==>
              (res.status == CREATED <==> SchemaValid(NewAccount(Employees, username, email, phone, password, manager, manager)))
    ensures res.status == CREATED ==>
              && manager.Some?
              && res.message == EMPLOYEE_ADDED
              && |db.employees| == |old(db.employees)| + 1
              && db.employees[..|old(db.employees)|] == old(db.employees)
              && db.employees[|old(db.employees)|] == PreSave(NewAccount(Employees, username, email, phone, password, manager, manager), salt)
              && ManagedBy(db.employees[|old(db.employees)|], manager.value)
              && db.employees[|old(db.employees)|].tier.createdBy == manager
              && IsActive(db.employees[|old(db.employees)|])
    ensures res.status != CREATED ==> db.employees == old(db.employees)
    ensures res.status != CREATED && res.status != BAD_REQUEST ==> res == Reply(SERVER_ERROR, failure)
    ensures forall d :: d != Employees ==> db.Table(d) == old(db.Table(d))
  {
    var r := Create(db, Employees, username, email, phone, password, manager, manager, salt);
    match r
    case AlreadyExists =>
      res := Reply(BAD_REQUEST, EMPLOYEE_EXISTS);
    case NotSaved =>
      res := Reply(SERVER_ERROR, failure);
    case Created(id, doc) =>
      assert db.employees[..id] == old(db.employees);
      var json := ToJson(id, doc);
      res := Response(CREATED, EMPLOYEE_ADDED, None, Some(json));
  }

  /** `findOne({ _id: id, managerId: manager })` finds exactly the manager's own employees. */
  lemma ScopedLookup(t: seq<Account>, id: Id, manager: Id)
    ensures FindOne(t, ByIdManagedBy(id, manager)).Some? <==> id < |t| && ManagedBy(t[id], manager)
    ensures FindOne(t, ByIdManagedBy(id, manager)).Some? ==> FindOne(t, ByIdManagedBy(id, manager)).value == id
  {
    if id < |t| && ManagedBy(t[id], manager) {
      assert Matches(ByIdManagedBy(id, manager), id, t[id]);
    }
  }

  /**
   * `updateEmployee` (manager): 404 unless the employee is the caller's; then
   * the shared checked update of username, email and phone.  A manager cannot
   * reassign an employee: its `managerId` is not among the fields.
   */
  method UpdateEmployee(db: Db, caller: Id, id: Id, username: string, email: string, phone: string)
    returns (res: Response)
    requires db.Valid()
    modifies db
    ensures db.Valid()
    ensures !(id < |old(db.employees)| && ManagedBy(old(db.employees)[id], caller)) ==>
              res == Reply(NOT_FOUND, NOT_UNDER_MANAGEMENT) && db.employees == old(db.employees)
    ensures id < |old(db.employees)| && ManagedBy(old(db.employees)[id], caller) ==>
              var t := old(db.employees);
              var e := Edit(username, email, phone, None);
              && (UsernameHeld(t, id, e) ==> res == Reply(BAD_REQUEST, USERNAME_EXISTS))
              && (!UsernameHeld(t, id, e) && EmailHeld(t, id, e) ==> res == Reply(BAD_REQUEST, EMAIL_EXISTS))
              && (!UsernameHeld(t, id, e) && !EmailHeld(t, id, e) ==>
                    (res.status == OK <==> SchemaValid(Amended(t[id], e)))
                    && (res.status != OK ==> res == Reply(SERVER_ERROR, SERVER_ERROR_MESSAGE)))
    ensures res.status == OK ==>
              && id < |old(db.employees)| && ManagedBy(old(db.employees)[id], caller)
              && db.employees == old(db.employees)[id := Amended(old(db.employees)[id], Edit(username, email, phone, None))]
              && ManagedBy(db.employees[id], caller)
    ensures res.status != OK ==> db.employees == old(db.employees)
    ensures forall d :: d != Employees ==> db.Table(d) == old(db.Table(d))
  {
    ScopedLookup(db.employees, id, caller);
    if FindOne(db.employees, ByIdManagedBy(id, caller)).None? {
      return Reply(NOT_FOUND, NOT_UNDER_MANAGEMENT);
    }
    res := Update(db, Employees, id, Edit(username, email, phone, None), true,
                  "Employee updated successfully", SERVER_ERROR_MESSAGE);
  }

  /**
   * The caller `s` is a manager and the employee `id` is one of its own.  A
   * caller of another role manages nobody: no employee's `managerId` is its
   * id.
   */
  predicate InScope(t: seq<Account>, s: SessionUser, id: Id)
  {
    s.role == MANAGER_ROLE && id < |t| && ManagedBy(t[id], s.id)
  }

  /**
   * `toggleEmployeeStatus` and `toggleEmployeeStatusWeb`: 404 with `notFound`
   * unless the employee is the caller's; otherwise its `isActive` is flipped
   * and it stays the caller's.  The API form's caller is the manager the gate
   * bound; the web form's is the session user, of whatever role: without one,
   * reading its id throws and the answer is 500 with nothing changed.
   */
  method ToggleEmployee(db: Db, caller: Option<SessionUser>, id: Id, notFound: string, failure: string)
    returns (res: Response)
    requires db.Valid()
    modifies db
    ensures db.Valid()
    ensures caller.None? ==> res == Reply(SERVER_ERROR, failure) && db.employees == old(db.employees)
    ensures caller.Some? && !InScope(old(db.employees), caller.value, id) ==>
              res == Reply(NOT_FOUND, notFound) && db.employees == old(db.employees)
    ensures caller.Some? && InScope(old(db.employees), caller.value, id) ==>
              && res.status == OK
              && db.employees == old(db.employees)[id := Toggled(old(db.employees)[id])]
              && IsActive(db.employees[id]) == !IsActive(old(db.employees)[id])
              && ManagedBy(db.employees[id], caller.value.id)
    ensures forall d :: d != Employees ==> db.Table(d) == old(db.Table(d))
  {
    if caller.None? {
      return Reply(SERVER_ERROR, failure);
    }
    if caller.value.role != MANAGER_ROLE {
      return Reply(NOT_FOUND, notFound);
    }
    var manager := caller.value.id;
    ScopedLookup(db.employees, id, manager);
    if FindOne(db.employees, ByIdManagedBy(id, manager)).None? {
      return Reply(NOT_FOUND, notFound);
    }
    var doc := Toggle(db, Employees, id);
    var json := ToJson(id, doc);
    res := Response(OK, ToggleMessage("Employee", IsActive(doc)), None, Some(json));
  }

  /**
   * `changePasswordWeb`: 400 when either password is missing; the manager is
   * `findById(session.user.id)` (500 without a session user, 404 when the
   * session's user is no manager); then the shared change of password, whose failures
   * answer "Error changing password".
   */
  method ChangePasswordWeb(db: Db, session: Option<SessionUser>, currentPassword: string, newPassword: string,
                           salt: nat) returns (res: Response)
    requires db.Valid()
    modifies db
    ensures db.Valid()
    ensures currentPassword == [] || newPassword == [] ==>
              res == Reply(BAD_REQUEST, FIELDS_REQUIRED) && db.managers == old(db.managers)
    ensures currentPassword != [] && newPassword != [] && session.None? ==>
              res == Reply(SERVER_ERROR, "Error changing password") && db.managers == old(db.managers)
    ensures currentPassword != [] && newPassword != [] && session.Some?
            && FindSessionUser(old(db.managers), Managers, session.value).None? ==>
              res == Reply(NOT_FOUND, "Manager not found") && db.managers == old(db.managers)
    ensures currentPassword != [] && newPassword != [] && session.Some?
            && FindSessionUser(old(db.managers), Managers, session.value).Some? ==>
              var m := old(db.managers)[session.value.id];
              && (!ComparePassword(m, currentPassword) ==> res == Reply(BAD_REQUEST, PASSWORD_INCORRECT))
              && (ComparePassword(m, currentPassword) && |newPassword| < PASSWORD_MIN_LENGTH ==>
                    res == Reply(SERVER_ERROR, "Error changing password"))
              && (ComparePassword(m, currentPassword) && |newPassword| >= PASSWORD_MIN_LENGTH ==>
                    res == Reply(OK, PASSWORD_CHANGED))
    ensures res.status == OK ==>
              && session.Some? && FindSessionUser(old(db.managers), Managers, session.value) == Some(session.value.id)
              && ComparePassword(old(db.managers)[session.value.id], currentPassword)
              && db.managers == old(db.managers)[session.value.id := PreSave(WithPassword(old(db.managers)[session.value.id], newPassword), salt)]
              && forall q :: ComparePassword(db.managers[session.value.id], q) <==> q == newPassword
    ensures res.status != OK ==> db.managers == old(db.managers)
    ensures forall d :: d != Managers ==> db.Table(d) == old(db.Table(d))
  {
    if currentPassword == [] || newPassword == [] {
      return Reply(BAD_REQUEST, FIELDS_REQUIRED);
    }
    if session.None? {
      return Reply(SERVER_ERROR, "Error changing password");
    }
    var found := FindSessionUser(db.managers, Managers, session.value);
    if found.None? {
      return Reply(NOT_FOUND, "Manager not found");
    }
    var id := found.value;
    res := ChangePassword(db, Managers, id, currentPassword, newPassword, salt, "Error changing password");
  }

  /**
   * `getStats`: `countDocuments({ managerId })` and the same with
   * `isActive: true`, inactive by subtraction.  It agrees with the dashboard's
   * counts, which filter the manager's employees in memory.
   */
  function GetStats(employees: seq<Account>, manager: Id): (s: Counts)
    ensures s == Tally(Managed(employees, manager))
  {
    var total := |Managed(employees, manager)|;
    ManagedActiveCount(employees, manager);
    var active := CountManagedActive(employees, manager);
    Counts(total, active, total - active)
  }
}

=== FILE: passport.dfy ===
/**
 * config/passport.js: the three `local` strategies (look the account up by
 * username or email, then compare the password) and the session encoding of
 * a logged-in user as `{id, role}`.
 */
module Passport {
  import opened Wrappers
  import opened Accounts
  import opened Store

  // ---------------------------------------------------------------------------
  // Credential check: the lookup and compare shared by the strategies and the
  // controllers' login handlers
  // ---------------------------------------------------------------------------

  datatype CredentialCheck = UnknownIdentity | WrongPassword(id: Id) | Verified(id: Id)

  /**
   * `findOne({ $or: [{ username }, { email: username }] })`, restricted to
   * `isActive: true` for managers and employees, then `bcrypt.compare` against
   * the first document found.
   */
  function CheckCredentials(t: seq<Account>, c: Collection, identifier: string, password: string): (r: CredentialCheck)
    ensures r.UnknownIdentity? <==>
              forall j :: 0 <= j < |t| ==> !Matches(ByLogin(identifier, c != Admins), j, t[j])
    ensures !r.UnknownIdentity? ==>
              && r.id < |t|
              && (t[r.id].username == Trim(identifier) || t[r.id].email == NormEmail(identifier))
              && (c != Admins ==> IsActive(t[r.id]))
              && (forall j :: 0 <= j < r.id ==> !Matches(ByLogin(identifier, c != Admins), j, t[j]))
    ensures r.Verified? <==> !r.UnknownIdentity? && ComparePassword(t[r.id], password)
  {
    match FindOne(t, ByLogin(identifier, c != Admins))
    case None => UnknownIdentity
    case Some(i) => if ComparePassword(t[i], password) then Verified(i) else WrongPassword(i)
  }

  /**
   * A stored account logs in with its own username and password, provided it
   * is active (managers, employees) and no other account's email normalises to
   * that username (the `$or` would otherwise find that account first or
   * instead).
   */
  lemma OwnCredentialsVerify(t: seq<Account>, c: Collection, i: Id, password: string)
    requires TableValid(t, c) && i < |t|
    requires ComparePassword(t[i], password)
    requires c != Admins ==> IsActive(t[i])
    requires forall j :: 0 <= j < |t| && j != i ==> t[j].email != NormEmail(t[i].username)
    ensures CheckCredentials(t, c, t[i].username, password) == Verified(i)
  {
    var f := ByLogin(t[i].username, c != Admins);
    assert Stored(t[i], c);
    TrimFixesTrimmed(t[i].username);
    assert Matches(f, i, t[i]);
    assert forall j :: 0 <= j < |t| && j != i ==> !Matches(f, j, t[j]) by {
      forall j | 0 <= j < |t| && j != i
        ensures !Matches(f, j, t[j])
      {
        assert t[j].username != t[i].username;
      }
    }
    assert FindOne(t, f) == Some(i);
  }

  /** A deactivated manager or employee is refused whatever password it presents. */
  lemma InactiveAccountRefused(t: seq<Account>, c: Collection, identifier: string, password: string)
    requires c != Admins
    requires forall j :: 0 <= j < |t| && (t[j].username == Trim(identifier) || t[j].email == NormEmail(identifier)) ==>
               !IsActive(t[j])
    ensures CheckCredentials(t, c, identifier, password) == UnknownIdentity
  {
  }

  // ---------------------------------------------------------------------------
  // The local strategies
  // ---------------------------------------------------------------------------

  /** What a strategy hands to `done`: the user, or `false` with a message. */
  datatype StrategyResult = Authenticated(id: Id, user: Account) | Rejected(message: string)

  const INVALID_CREDENTIALS: string := "Invalid credentials"

  /** The message a strategy gives when the lookup finds nothing. */
  function NotFoundMessage(c: Collection): string
  {
    match c
    case Admins => "Admin not found"
    case Managers => "Manager not found or inactive"
    case Employees => "Employee not found or inactive"
  }

  /** `admin-local`, `manager-local` and `employee-local`. */
  function LocalStrategy(t: seq<Account>, c: Collection, username: string, password: string): (r: StrategyResult)
    ensures r.Authenticated? <==> CheckCredentials(t, c, username, password).Verified?
    ensures r.Authenticated? ==> r.id < |t| && r.user == t[r.id] && ComparePassword(r.user, password)
    ensures r.Authenticated? && c != Admins ==> IsActive(r.user)
    ensures r.Rejected? ==>
              r.message == if CheckCredentials(t, c, username, password).UnknownIdentity?
                           then NotFoundMessage(c) else INVALID_CREDENTIALS
  {
    match CheckCredentials(t, c, username, password)
    case UnknownIdentity => Rejected(NotFoundMessage(c))
    case WrongPassword(_) => Rejected(INVALID_CREDENTIALS)
    case Verified(i) => Authenticated(i, t[i])
  }

  // ---------------------------------------------------------------------------
  // Sessions
  // ---------------------------------------------------------------------------

  /** What the session stores about its user. */
  datatype SessionUser = SessionUser(id: Id, role: string)

  /** `serializeUser`: only the id and the role of the user. */
  function SerializeUser(id: Id, a: Account): (s: SessionUser)
    ensures s.id == id && s.role == a.role
  {
    SessionUser(id, a.role)
  }

  /** The collection a role names, if any. */
  function CollectionOf(role: string): (r: Option<Collection>)
    ensures r.Some? ==> RoleName(r.value) == role
    ensures r.None? ==> forall c :: RoleName(c) != role
  {
    if role == ADMIN_ROLE then Some(Admins)
    else if role == MANAGER_ROLE then Some(Managers)
    else if role == EMPLOYEE_ROLE then Some(Employees)
    else None
  }

  /** A user bound to a request: the collection it comes from, its id and its document. */
  datatype Principal = Principal(collection: Collection, id: Id, user: Account)

  /**
   * `deserializeUser`: `findById` in the collection the stored role names; no
   * user for an unknown role or a missing id.  It does not look at `isActive`.
   */
  function DeserializeUser(admins: seq<Account>, managers: seq<Account>, employees: seq<Account>,
                           s: SessionUser): (r: Option<Principal>)
    ensures r.Some? <==> CollectionOf(s.role).Some? && s.id < |Pick(CollectionOf(s.role).value, admins, managers, employees)|
    ensures r.Some? ==> RoleName(r.value.collection) == s.role && r.value.id == s.id
    ensures r.Some? ==> r.value.user == Pick(r.value.collection, admins, managers, employees)[s.id]
  {
    match CollectionOf(s.role)
    case None => None
    case Some(c) =>
      var t := Pick(c, admins, managers, employees);
      if s.id < |t| then Some(Principal(c, s.id, t[s.id])) else None
  }

  /**
   * `Model.findById(req.session.user.id)` on the collection `c` of a web
   * handler.  Ids are unique across the three collections and a session keeps
   * the id of a document of the role it names, so only a session user of
   * `c`'s role can be found there.
   */
  function FindSessionUser(t: seq<Account>, c: Collection, s: SessionUser): Option<Id>
  {
    if s.role == RoleName(c) && s.id < |t| then Some(s.id) else None
  }

  /**
   * A web handler's lookup finds the session user in its collection exactly
   * when `deserializeUser` binds that user to this collection.
   */
  lemma {:induction false} FindSessionUserAgrees(admins: seq<Account>, managers: seq<Account>, employees: seq<Account>,
                                                 c: Collection, s: SessionUser)
    ensures var d := DeserializeUser(admins, managers, employees, s);
            FindSessionUser(Pick(c, admins, managers, employees), c, s) ==
              if d.Some? && d.value.collection == c then Some(d.value.id) else None
  {
    assert CollectionOf(RoleName(c)) == Some(c) by {
      match c
      case Admins =>
      case Managers => assert MANAGER_ROLE != ADMIN_ROLE;
      case Employees => assert EMPLOYEE_ROLE != ADMIN_ROLE && EMPLOYEE_ROLE != MANAGER_ROLE;
    }
  }

  /**
   * Serialising a stored user and deserialising the session gives back the
   * same collection, id and document.
   */
  lemma {:induction false} SessionRoundTrip(admins: seq<Account>, managers: seq<Account>, employees: seq<Account>,
                                            c: Collection, id: Id)
    requires id < |Pick(c, admins, managers, employees)|
    requires InCollection(Pick(c, admins, managers, employees)[id], c)
    ensures DeserializeUser(admins, managers, employees, SerializeUser(id, Pick(c, admins, managers, employees)[id]))
            == Some(Principal(c, id, Pick(c, admins, managers, employees)[id]))
  {
    var a := Pick(c, admins, managers, employees)[id];
    assert CollectionOf(a.role) == Some(c) by {
      match c
      case Admins =>
      case Managers => assert MANAGER_ROLE != ADMIN_ROLE;
      case Employees => assert EMPLOYEE_ROLE != ADMIN_ROLE && EMPLOYEE_ROLE != MANAGER_ROLE;
    }
  }
}

=== FILE: store.dfy ===
/**
 * The document store behind the three models: one table per collection, the
 * queries the handlers issue, the counts the dashboards take, and `save()`
 * (validation, the pre-save hook, then the unique indexes on `username` and
 * `email`).  Tables are append-only (there is no delete path), so a document's
 * id is its position and "first match" is the natural insertion order.
 */
module Store {
  import opened Wrappers
  import opened Accounts

  // ---------------------------------------------------------------------------
  // Queries
  // ---------------------------------------------------------------------------

  /**
   * The `findOne` filters the handlers use.  Query values are cast through the
   * schema setters of their path, as the document layer does, so a username is
   * trimmed and an email lowercased and trimmed before it is compared.
   */
  datatype Filter =
    | ByLogin(identifier: string, activeOnly: bool)      // { $or: [{ username }, { email: username }] } [+ isActive: true]
    | ByUsernameOrEmail(username: string, email: string)  // { $or: [{ username }, { email }] }
    | ByEmail(email: string, activeOnly: bool)           // { email } [+ isActive: true]
    | ByUsernameExcept(username: string, except: Id)     // { username, _id: { $ne: except } }
    | ByEmailExcept(email: string, except: Id)           // { email, _id: { $ne: except } }
    | ByIdManagedBy(id: Id, manager: Id)                 // { _id: id, managerId: manager }

  /** An employee document whose `managerId` is the given manager. */
  predicate ManagedBy(a: Account, manager: Id)
  {
    a.tier.EmployeeTier? && a.tier.managerId == Some(manager)
  }

  predicate Matches(f: Filter, i: Id, a: Account)
  {
    match f
    case ByLogin(identifier, activeOnly) =>
      (a.username == Trim(identifier) || a.email == NormEmail(identifier)) && (!activeOnly || IsActive(a))
    case ByUsernameOrEmail(username, email) => a.username == Trim(username) || a.email == NormEmail(email)
    case ByEmail(email, activeOnly) => a.email == NormEmail(email) && (!activeOnly || IsActive(a))
    case ByUsernameExcept(username, except) => a.username == Trim(username) && i != except
    case ByEmailExcept(email, except) => a.email == NormEmail(email) && i != except
    case ByIdManagedBy(id, manager) => i == id && ManagedBy(a, manager)
  }

  /** The first document at or after position `k` that matches. */
  function FindFrom(t: seq<Account>, f: Filter, k: nat): (r: Option<Id>)
    requires k <= |t|
    ensures r.Some? ==> k <= r.value < |t| && Matches(f, r.value, t[r.value])
    ensures r.Some? ==> forall j :: k <= j < r.value ==> !Matches(f, j, t[j])
    ensures r.None? ==> forall j :: k <= j < |t| ==> !Matches(f, j, t[j])
    decreases |t| - k
  {
    if k == |t| then None
    else if Matches(f, k, t[k]) then Some(k)
    else FindFrom(t, f, k + 1)
  }

  /** `Model.findOne(filter)`: the first matching document in natural order, or none when nothing matches. */
  function FindOne(t: seq<Account>, f: Filter): (r: Option<Id>)
    ensures r.Some? ==> r.value < |t| && Matches(f, r.value, t[r.value])
    ensures r.Some? ==> forall j :: 0 <= j < r.value ==> !Matches(f, j, t[j])
    ensures r.None? <==> forall j :: 0 <= j < |t| ==> !Matches(f, j, t[j])
  {
    FindFrom(t, f, 0)
  }

  // ---------------------------------------------------------------------------
  // Counts (`find(...).filter(...).length` and `countDocuments(...)`)
  // ---------------------------------------------------------------------------

  /** `Employee.find({ managerId })`: the manager's employees, in natural order. */
  function Managed(t: seq<Account>, manager: Id): (r: seq<Account>)
    ensures |r| <= |t|
    ensures forall a :: a in r ==> a in t && ManagedBy(a, manager)
    ensures forall a :: a in t && ManagedBy(a, manager) ==> a in r
  {
    if t == [] then []
    else (if ManagedBy(t[0], manager) then [t[0]] else []) + Managed(t[1..], manager)
  }

  /** `.filter(x => x.isActive).length` */
  function CountActive(t: seq<Account>): nat
  {
    if t == [] then 0 else (if IsActive(t[0]) then 1 else 0) + CountActive(t[1..])
  }

  /** `.filter(x => !x.isActive).length` */
  function CountInactive(t: seq<Account>): nat
  {
    if t == [] then 0 else (if IsActive(t[0]) then 0 else 1) + CountInactive(t[1..])
  }

  /** `Employee.countDocuments({ managerId, isActive: true })` */
  function CountManagedActive(t: seq<Account>, manager: Id): nat
  {
    if t == [] then 0
    else (if ManagedBy(t[0], manager) && IsActive(t[0]) then 1 else 0) + CountManagedActive(t[1..], manager)
  }

  /** Every document is counted as active or as inactive, never both. */
  lemma {:induction false} ActivePlusInactive(t: seq<Account>)
    ensures CountActive(t) + CountInactive(t) == |t|
  {
    if t != [] {
      ActivePlusInactive(t[1..]);
    }
  }

  /** Counting a manager's active employees in the whole table equals counting the active ones in its list. */
  lemma {:induction false} ManagedActiveCount(t: seq<Account>, manager: Id)
    ensures CountManagedActive(t, manager) == CountActive(Managed(t, manager))
    ensures CountManagedActive(t, manager) <= |Managed(t, manager)|
  {
    if t != [] {
      ManagedActiveCount(t[1..], manager);
      var head := if ManagedBy(t[0], manager) then [t[0]] else [];
      CountActiveAppend(head, Managed(t[1..], manager));
      ActivePlusInactive(Managed(t, manager));
    }
  }

  lemma {:induction false} CountActiveAppend(s: seq<Account>, u: seq<Account>)
    ensures CountActive(s + u) == CountActive(s) + CountActive(u)
  {
    if s != [] {
      assert (s + u)[0] == s[0];
      assert (s + u)[1..] == s[1..] + u;
      CountActiveAppend(s[1..], u);
      assert CountActive(s + u) == (if IsActive(s[0]) then 1 else 0) + CountActive(s[1..] + u);
    } else {
      assert s + u == u;
    }
  }

  // ---------------------------------------------------------------------------
  // save()
  // ---------------------------------------------------------------------------

  /** Each table's unique indexes: no two documents share a username or an email. */
  predicate Unique(t: seq<Account>)
  {
    forall i, j :: 0 <= i < |t| && 0 <= j < |t| && i != j ==>
      t[i].username != t[j].username && t[i].email != t[j].email
  }

  /** Saving `d` at position `i` would violate a unique index. */
  predicate Clash(t: seq<Account>, i: nat, d: Account)
  {
    exists j :: 0 <= j < |t| && j != i && (t[j].username == d.username || t[j].email == d.email)
  }

  /** What every persisted document satisfies. */
  predicate Stored(a: Account, c: Collection)
  {
    SchemaValid(a) && a.password.Hashed? && Normalized(a) && InCollection(a, c)
  }

  /**
   * A valid table: its unique indexes hold and every document is stored.  The
   * per-document facts are only drawn out for a document a proof names.
   */
  predicate TableValid(t: seq<Account>, c: Collection)
  {
    Unique(t) && forall i {:trigger Stored(t[i], c)} :: 0 <= i < |t| ==> Stored(t[i], c)
  }

  /** Writing position `i` (an update), or position `|t|` (an insert). */
  function Put(t: seq<Account>, i: nat, d: Account): (r: seq<Account>)
    requires i <= |t|
  {
    if i == |t| then t + [d] else t[i := d]
  }

  datatype SaveError = ValidationError | DuplicateKey

  datatype SaveOutcome = Saved(table: seq<Account>, doc: Account) | SaveFailed(error: SaveError)

  /**
   * `doc.save()` at position `i`: the validators run first, then the pre-save
   * hook, then the write, which a unique index refuses when another document
   * already has the username or the email.
   */
  function SaveAt(t: seq<Account>, i: nat, doc: Account, salt: nat): (r: SaveOutcome)
    requires i <= |t|
    ensures r.Saved? <==> SchemaValid(doc) && !Clash(t, i, doc)
    ensures r == SaveFailed(DuplicateKey) <==> SchemaValid(doc) && Clash(t, i, doc)
    ensures r.Saved? ==> r.doc == PreSave(doc, salt) && r.table == Put(t, i, r.doc)
  {
    if !SchemaValid(doc) then SaveFailed(ValidationError)
    else if Clash(t, i, doc) then SaveFailed(DuplicateKey)
    else
      var stored := PreSave(doc, salt);
      Saved(Put(t, i, stored), stored)
  }

  /** Writing a document that clashes with no other keeps the unique indexes. */
  lemma PutKeepsUnique(t: seq<Account>, i: nat, d: Account)
    requires i <= |t| && Unique(t) && !Clash(t, i, d)
    ensures Unique(Put(t, i, d))
  {
    var u := Put(t, i, d);
    forall j, k | 0 <= j < |u| && 0 <= k < |u| && j != k
      ensures u[j].username != u[k].username && u[j].email != u[k].email
    {
      if j == i {
        assert u[k] == t[k];
      } else if k == i {
        assert u[j] == t[j];
      } else {
        assert u[j] == t[j] && u[k] == t[k];
      }
    }
  }

  /** The pre-save hook turns a valid, normalised document into a stored one. */
  lemma PreSaveStores(doc: Account, c: Collection, salt: nat)
    requires SchemaValid(doc) && Normalized(doc) && InCollection(doc, c)
    ensures Stored(PreSave(doc, salt), c)
  {
  }

  /** A successful save keeps a table valid: the indexes still hold and the new document is stored hashed. */
  lemma SavePreservesTable(t: seq<Account>, c: Collection, i: nat, doc: Account, salt: nat)
    requires i <= |t| && TableValid(t, c)
    requires InCollection(doc, c) && Normalized(doc)
    requires SaveAt(t, i, doc, salt).Saved?
    ensures TableValid(SaveAt(t, i, doc, salt).table, c)
  {
    var stored := PreSave(doc, salt);
    PreSaveStores(doc, c, salt);
    PutKeepsUnique(t, i, stored);
    var u := Put(t, i, stored);
    forall j | 0 <= j < |u| ensures Stored(u[j], c) {
      if j != i {
        assert u[j] == t[j];
      }
    }
  }

  /** Saving a stored document again, with the same username and email, always succeeds. */
  lemma ResaveSucceeds(t: seq<Account>, c: Collection, i: nat, doc: Account, salt: nat)
    requires i < |t| && TableValid(t, c)
    requires SchemaValid(doc) && doc.username == t[i].username && doc.email == t[i].email
    ensures SaveAt(t, i, doc, salt).Saved?
  {
    if Clash(t, i, doc) {
      var j :| 0 <= j < |t| && j != i && (t[j].username == doc.username || t[j].email == doc.email);
      assert false;
    }
  }

  // ---------------------------------------------------------------------------
  // The store
  // ---------------------------------------------------------------------------

  /** The table of collection `c` among the three. */
  function Pick(c: Collection, admins: seq<Account>, managers: seq<Account>, employees: seq<Account>): seq<Account>
  {
    match c
    case Admins => admins
    case Managers => managers
    case Employees => employees
  }

  /** The three collections, written one request at a time. */
  class Db {
    var admins: seq<Account>
    var managers: seq<Account>
    var employees: seq<Account>

    ghost predicate Valid()
      reads this
    {
      TableValid(admins, Admins) && TableValid(managers, Managers) && TableValid(employees, Employees)
    }

    function Table(c: Collection): seq<Account>
      reads this
    {
      Pick(c, admins, managers, employees)
    }

    constructor ()
      ensures Valid()
      ensures admins == [] && managers == [] && employees == []
    {
      admins, managers, employees := [], [], [];
    }

    /**
     * `doc.save()` for the document at position `i` of collection `c` (or a new
     * one when `i` is the table's length): the table becomes the saved table
     * when the save succeeds and is untouched when it fails.
     */
    method Save(c: Collection, i: nat, doc: Account, salt: nat) returns (ok: bool)
      requires Valid() && i <= |Table(c)|
      requires InCollection(doc, c) && Normalized(doc)
      modifies this
      ensures Valid()
      ensures ok <==> SaveAt(old(Table(c)), i, doc, salt).Saved?
      ensures ok ==> Table(c) == SaveAt(old(Table(c)), i, doc, salt).table
      ensures !ok ==> Table(c) == old(Table(c))
      ensures forall d :: d != c ==> Table(d) == old(Table(d))
    {
      var r := SaveAt(Table(c), i, doc, salt);
      ok := r.Saved?;
      if ok {
        SavePreservesTable(Table(c), c, i, doc, salt);
        match c {
          case Admins => admins := r.table;
          case Managers => managers := r.table;
          case Employees => employees := r.table;
        }
      }
    }
  }
}

=== FILE: tokens.dfy ===
/**
 * The bearer tokens of middleware/auth.js: `generateToken` signs
 * `{id, role, username}` for seven days with the process secret, and the
 * gates verify what a request presents.  HS256 signing is modelled as an
 * ideal MAC: a signature is valid for a key exactly when it was made with that
 * key over the same payload and times.
 */
module Tokens {
  import opened Wrappers
  import opened Accounts

  /** The fallback used when `JWT_SECRET` is unset or empty. */
  const DEFAULT_SECRET: string := "your-jwt-secret"

  /** `expiresIn: '7d'`, in seconds. */
  const TOKEN_LIFETIME_SECONDS: int := 7 * 24 * 60 * 60

  /** The payload `generateToken` signs. */
  datatype Claims = Claims(id: Id, role: string, username: string)

  /** An HS256 signature over the payload and its issue and expiry times. */
  datatype Mac = Hs256(key: string, payload: Claims, iat: int, exp: int)

  /** A presented token: one that does not parse, or a signed payload. */
  datatype Jwt = Garbled | Signed(payload: Claims, iat: int, exp: int, mac: Mac)

  /** What `jwt.verify` yields: the payload, or the exception it throws. */
  datatype Decoded = Invalid | Valid(claims: Claims)

  /** `process.env.JWT_SECRET || 'your-jwt-secret'` */
  function SigningSecret(env: Option<string>): string
  {
    if env.Some? && env.value != [] then env.value else DEFAULT_SECRET
  }

  /** The token clock: whole seconds since the epoch (`Math.floor(Date.now() / 1000)`). */
  function EpochSeconds(nowMs: int): int
  {
    nowMs / 1000
  }

  /**
   * `generateToken(user)`: the payload is exactly the user's id, role and
   * username; the token is issued now and expires seven days later.
   */
  function GenerateToken(id: Id, user: Account, secret: string, nowMs: int): (t: Jwt)
    ensures t.Signed? && t.payload == Claims(id, user.role, user.username)
    ensures t.iat == EpochSeconds(nowMs) && t.exp == t.iat + TOKEN_LIFETIME_SECONDS
    ensures t.mac.key == secret
  {
    var claims := Claims(id, user.role, user.username);
    var iat := EpochSeconds(nowMs);
    Signed(claims, iat, iat + TOKEN_LIFETIME_SECONDS, Hs256(secret, claims, iat, iat + TOKEN_LIFETIME_SECONDS))
  }

  /**
   * `jwt.verify(token, secret)`: the payload of a well-formed token whose
   * signature was made with this secret over exactly this payload and these
   * times, while the clock is before the expiry; `Invalid` otherwise.
   */
  function Verify(t: Jwt, secret: string, nowMs: int): (d: Decoded)
    ensures d.Valid? <==> t.Signed? && t.mac == Hs256(secret, t.payload, t.iat, t.exp) && EpochSeconds(nowMs) < t.exp
    ensures d.Valid? ==> d.claims == t.payload
  {
    if t.Signed? && t.mac == Hs256(secret, t.payload, t.iat, t.exp) && EpochSeconds(nowMs) < t.exp
    then Valid(t.payload)
    else Invalid
  }

  /**
   * A token generated for a user verifies, under the same secret, to that
   * user's `{id, role, username}` until seven days have passed, and is
   * rejected from then on.
   */
  lemma IssuedTokenVerifiesUntilExpiry(id: Id, user: Account, secret: string, issuedMs: int, nowMs: int)
    ensures Verify(GenerateToken(id, user, secret, issuedMs), secret, nowMs)
            == if EpochSeconds(nowMs) < EpochSeconds(issuedMs) + TOKEN_LIFETIME_SECONDS
               then Valid(Claims(id, user.role, user.username))
               else Invalid
  {
  }

  /** A token signed with another secret never verifies. */
  lemma ForeignSecretRejected(id: Id, user: Account, secret: string, other: string, issuedMs: int, nowMs: int)
    requires other != secret
    ensures Verify(GenerateToken(id, user, other, issuedMs), secret, nowMs) == Invalid
  {
  }

  /** Changing the payload of a signed token (say, its role) invalidates it. */
  lemma TamperedPayloadRejected(t: Jwt, forged: Claims, secret: string, nowMs: int)
    requires t.Signed? && t.mac.payload == t.payload && forged != t.payload
    ensures Verify(t.(payload := forged), secret, nowMs) == Invalid
  {
  }

  /**
   * With `JWT_SECRET` unset, anyone who knows the built-in default can mint a
   * token for any id and role that every gate accepts.
   */
  lemma DefaultSecretAcceptsForgedTokens(claims: Claims, nowMs: int)
    ensures var forged := Signed(claims, EpochSeconds(nowMs), EpochSeconds(nowMs) + 1,
                                 Hs256(DEFAULT_SECRET, claims, EpochSeconds(nowMs), EpochSeconds(nowMs) + 1));
            Verify(forged, SigningSecret(None), nowMs) == Valid(claims)
  {
  }
}

=== FILE: wrappers.dfy ===
/** The optional value used wherever the source has `undefined`/`null`. */
module Wrappers {

  datatype Option<+T> = None | Some(value: T)
}
